=== FILE: README.md ===
# smartos-pxe platform download, modelled in Dafny

`smartos-pxe` serves SmartOS images over PXE. Before serving, it keeps a local copy of the
newest SmartOS platform in its data directory. `downloadPlatform` does this in four steps:
1. It reads a "latest" pointer from the download server.
2. It derives the version (the last path element of the trimmed pointer text), the install
   target `<datadir>/platform-<version>` and the archive URL.
3. It does nothing when the target already exists.
4. Otherwise it streams the `.tgz` archive into `unpackTarGZ`.

`unpackTarGZ` works in three stages:
- It extracts every tar entry into a staging directory named `<dstdir>.<UnixNano>`.
- It renames each top-level entry of the staging directory into `dstdir`, in sorted order.
- It removes the staging directory.

The model has six modules:

- `FilePath` (paths.dfy) covers Go's path functions and the integer-to-text conversion used in
  the staging name:
  - `strings.TrimSpace`;
  - `filepath.Base`, `Clean` and `Join`;
  - the lexical resolution of a path string against the working directory (`Lookup`): each
    `..` drops the last element reached so far, as `filepath.Clean` does, without looking at
    the filesystem;
  - `%d`.
- `FileSystem` (fsys.dfy) models the filesystem as a map from paths (sequences of names) to
  directory and file nodes. It includes a tree invariant `Wf` and the os calls the core makes:
  `MkdirAll`, `Create`, `Chmod`, the `io.Copy` write, `Rename` and `RemoveAll`. Each call is a
  function that returns the new filesystem or the error.
- `Listing` (listing.dfy) is the sorted order `filepath.Glob` returns names in.
- `Unpack` (unpack.dfy) defines `unpackTarGZ` as a specification function over the
  filesystem, together with the properties of staging, extraction and publishing.
- `Download` (download.dfy) defines `downloadPlatform` as a specification function, together
  with the version, target and URL derivation.
- `Machine` (host.dfy) holds `Host`, a class whose `fs` field is the filesystem. Its methods
  `UnpackTarGZ` and `DownloadPlatform` perform the source's loops step by step. Each is proved
  equal to the specification function.

The two HTTP replies and the decoded archive are parameters, as is the clock reading. The
archive is a list of tar entries plus how the stream ends.

Behaviour of the code that the model keeps:
- **Staging clean-up.** The staging directory is removed only after every rename has
  succeeded (download.go:115). On any earlier error the function returns at once and the
  staging directory stays where extraction put it (`StagingKeptOnError`).
- **Copy failures.** A failure while copying an entry's content is returned as `io.Copy`
  returns it (download.go:100-102). When the tar reader fails mid-entry that is the archive's
  error, so the model reports it as `Tar`.
- **Location of the staging directory.** The staging name is `dstdir` with `.<nanos>`
  appended (download.go:63). When the last element of `dstdir` is a plain name, the staging
  directory is a sibling of the destination (`StagingBesideDestination`). With a trailing
  slash on `dstdir`, it is created inside the destination (`StagingInsideWithTrailingSlash`).
- **Entry names.** Tar entry names are joined to the staging directory unchecked
  (download.go:81). An entry named `../x` is written outside the staging directory
  (`EntryEscapes`), and the model keeps that behaviour. The frame lemmas assume confined names.
- **Existing directories in the destination.** `os.Rename` on Unix refuses any existing
  directory at the new name with EEXIST, even an empty one, before calling rename(2). A
  staging entry whose name is already a directory in `dstdir` therefore stops the publish loop
  (`ExistingDirectoryBlocksPublish`) and leaves the staging directory behind.

## Model

| member | source | states |
|---|---|---|
| FilePath.TrimSpace | src/cmd/smartos-pxe/download.go:32 | the result is the infix of the input between its leading and trailing white space, and it neither starts nor ends with white space |
| FilePath.Base | src/cmd/smartos-pxe/download.go:33 | "" gives "."; all slashes give "/"; otherwise the result is the non-empty, slash-free last element after trailing slashes are stripped |
| FilePath.Join | src/cmd/smartos-pxe/download.go:34 | joining two strings that are not both empty never gives the empty path |
| FilePath.Clean | src/cmd/smartos-pxe/download.go:34 | `filepath.Clean` never gives the empty string and keeps a path absolute exactly when it was; `LookupClean` shows it names the same node |
| FilePath.JoinChild | src/cmd/smartos-pxe/download.go:34 | joining a plain name onto any path string names that child of the directory the path resolves to; the empty string names the working directory, as `filepath.Join("", name)` gives `name` |
| FilePath.CleanName | src/cmd/smartos-pxe/download.go:34 | `filepath.Clean` leaves a plain name as it is |
| FilePath.JoinResolve | src/cmd/smartos-pxe/download.go:81 | a joined entry name resolves as the tar name's elements applied one by one, `..` included, to the staging directory |
| FilePath.LookupClean | src/cmd/smartos-pxe/download.go:81 | cleaning a path string never changes the node it resolves to |
| FilePath.BaseJoin | src/cmd/smartos-pxe/download.go:110 | the base of any directory string, the empty one included, joined with a plain name is that name, so every globbed path keeps its own name in the destination |
| FilePath.Itoa | src/cmd/smartos-pxe/download.go:63 | `%d` text is non-empty, has no slash, does not end in a dot, and starts with '-' exactly for negatives |
| FilePath.ItoaInjective | src/cmd/smartos-pxe/download.go:63 | different clock readings print differently |
| FileSystem.MkdirAll | src/cmd/smartos-pxe/download.go:84 | on success the path and all its ancestors are directories, existing nodes are kept, and only directories on the path are added; a failure is NotDir at a file ancestor or NotExist, and in a well-formed tree always NotDir |
| FileSystem.MkdirAllIdempotent | src/cmd/smartos-pxe/download.go:84 | creating an existing directory tree again succeeds and changes nothing |
| FileSystem.Create | src/cmd/smartos-pxe/download.go:95 | succeeds exactly on an existing file or a free name in a directory; truncates, keeps an existing mode or uses 0666; otherwise IsDir on a directory, NotDir when the walk to the parent meets a file at any depth, NotExist when it meets a missing directory |
| FileSystem.FileOnPathAncestor | src/cmd/smartos-pxe/download.go:95 | in a tree, the walk to a path meets a file (the ENOTDIR case) exactly when the path or one of its ancestors is a file |
| FileSystem.CreateBelowFileExample | src/cmd/smartos-pxe/download.go:95 | creating /f/d/x where /f is a file fails with NotDir, not NotExist |
| FileSystem.Chmod | src/cmd/smartos-pxe/download.go:99 | sets the mode of an existing node and changes nothing else |
| FileSystem.Write | src/cmd/smartos-pxe/download.go:100 | appends the bytes to an existing file and changes nothing else |
| FileSystem.Rename | src/cmd/smartos-pxe/download.go:111 | as Go's `os.Rename` on Unix: an existing directory at the destination fails with EEXIST; a walk to either parent that meets a file fails with NotDir, one that meets a missing directory with NotExist; otherwise success exactly under rename(2)'s conditions (a file replaces only a file); moves the whole source subtree to the destination; leaves every other node alone; keeps the tree well formed |
| FileSystem.RenameRemovesSource | src/cmd/smartos-pxe/download.go:111 | after a rename to a different place nothing remains at or below the source |
| FileSystem.RemoveAll | src/cmd/smartos-pxe/download.go:115 | removes exactly the subtree at the path (never the root) and keeps the tree well formed |
| FileSystem.Children | src/cmd/smartos-pxe/download.go:108 | the directory read behind the glob: a name is listed exactly when the directory has an entry of that name |
| Listing.SortedNames | src/cmd/smartos-pxe/download.go:108 | the listing holds exactly the set's names, once each, strictly ascending |
| Unpack.StagingDir | src/cmd/smartos-pxe/download.go:63 | the staging name extends the destination string |
| Unpack.StagingLayout | src/cmd/smartos-pxe/download.go:63 | the staging directory is the destination's last element plus "." and the clock, in the destination's parent |
| Unpack.StagingDisjoint | src/cmd/smartos-pxe/download.go:63 | runs with different clock readings use disjoint staging trees |
| Unpack.StagingBesideDestination | src/cmd/smartos-pxe/download.go:63 | for a destination ending in a plain name, staging sits beside it: same parent, neither inside the other |
| Unpack.StagingInsideWithTrailingSlash | src/cmd/smartos-pxe/download.go:63 | a destination string ending in '/' puts the staging directory inside the destination |
| Unpack.StagingRooted | src/cmd/smartos-pxe/download.go:63 | the staging path is absolute exactly when `dstdir` is |
| Unpack.StagingNotRoot | src/cmd/smartos-pxe/download.go:63 | the staging directory is never the filesystem root |
| Unpack.StagingNotAbove | src/cmd/smartos-pxe/download.go:63 | the staging directory is never the destination or one of its ancestors, for every `dstdir` |
| Unpack.ExtractEntry | src/cmd/smartos-pxe/download.go:80-105 | a directory entry leaves a directory with all its ancestors, and the directories it makes carry the entry's mode; a file entry leaves exactly its mode and content; a file fails before any write unless its place is a file or a free name in a directory; only the entry's path and its missing ancestors change |
| Unpack.Extract | src/cmd/smartos-pxe/download.go:71-106 | extraction never removes a node, keeps the tree well formed, and fails only with an os error or a read error |
| Unpack.ExtractConcat | src/cmd/smartos-pxe/download.go:71-106 | extracting two runs of entries is extracting the first and, if that succeeded, the second from its result |
| Unpack.FirstErrorAborts | src/cmd/smartos-pxe/download.go:76-104 | the first failing entry's outcome is the outcome of the whole extraction |
| Unpack.ExtractKeeps | src/cmd/smartos-pxe/download.go:83-105 | a node no entry names is left as it was |
| Unpack.DirectoryEntryRepeats | src/cmd/smartos-pxe/download.go:83-89 | a directory entry repeated after success is a no-op |
| Unpack.LastFileWins | src/cmd/smartos-pxe/download.go:95-102 | after a successful extraction a file holds the last entry written to its path |
| Unpack.ExtractKeepsDirs | src/cmd/smartos-pxe/download.go:83-101 | a directory survives a successful extraction: a later file entry naming it would fail in os.Create |
| Unpack.ExtractLeaves | src/cmd/smartos-pxe/download.go:71-106 | after a successful extraction every entry's target exists, and a directory entry's target is a directory |
| Unpack.ExtractPlainKeys | src/cmd/smartos-pxe/download.go:81 | resolved entry paths only ever create nodes with plain names |
| Unpack.NoDotDotConfined | src/cmd/smartos-pxe/download.go:81 | a name without `..` elements lands inside the staging directory |
| Unpack.EntryEscapes | src/cmd/smartos-pxe/download.go:81 | the name "../x" lands beside the staging directory, outside it |
| Unpack.ExtractConfined | src/cmd/smartos-pxe/download.go:71-106 | with confined names, extraction changes nothing outside the staging directory and adds only it, its contents and its ancestors |
| Unpack.FileBeforeDirectoryFails | src/cmd/smartos-pxe/download.go:95-98 | a file entry with a plain name, first in a fresh archive, fails, with NotDir when the walk to the staging directory meets a file and NotExist otherwise, and changes nothing |
| Unpack.EmptyArchiveChangesNothing | src/cmd/smartos-pxe/download.go:108-116 | an archive with no entries succeeds and leaves the filesystem as it was |
| Unpack.GlobNames | src/cmd/smartos-pxe/download.go:108 | the names are exactly the staging directory's entries (none if it is not a directory), strictly sorted |
| Unpack.Publish | src/cmd/smartos-pxe/download.go:109-114 | the rename loop over the globbed names, each renamed to its base name in `dstdir`, stopping at the first failure: the only error it reports is a rename's own; its further properties are stated by `PublishStep`, `PublishWf`, `PublishMoves`, `PublishKeeps`, `PublishAddsOnlyToDestination` and `PublishKeepsStaging` |
| Unpack.PublishWf | src/cmd/smartos-pxe/download.go:109-114 | the renames keep the filesystem a tree |
| Unpack.RenameMoves | src/cmd/smartos-pxe/download.go:111 | renaming one staging entry to a free name in the destination succeeds and relocates exactly that subtree |
| Unpack.MovedCompose | src/cmd/smartos-pxe/download.go:109-114 | relocating one entry and then the rest is relocating them all |
| Unpack.PublishMoves | src/cmd/smartos-pxe/download.go:108-114 | renaming distinct staging entries into free names of the destination succeeds and relocates each subtree whole |
| Unpack.PublishLayout | src/cmd/smartos-pxe/download.go:108-116 | after a successful publish every node below the staging directory is at the same place below the destination, the staging directory is gone, and every other node is unchanged |
| Unpack.PublishStep | src/cmd/smartos-pxe/download.go:109-113 | one turn of the publish loop renames the staging entry `c` to the entry `c` of the destination and stops the loop if that fails |
| Unpack.ExistingDirectoryBlocksPublish | src/cmd/smartos-pxe/download.go:109-113 | a staging entry whose name is already a directory in the destination stops the loop with EEXIST and changes nothing |
| Unpack.RenameOutside | src/cmd/smartos-pxe/download.go:111 | a successful rename keeps every node outside the subtrees of its source and destination, and adds nothing outside the destination's subtree |
| Unpack.RenameFrame | src/cmd/smartos-pxe/download.go:111 | a successful rename of `stage + [c]` to `dst + [c]` keeps every node outside the subtrees of those two entries, and every node outside the subtree of `dst + [c]` was there before, unchanged |
| Unpack.PublishTurn | src/cmd/smartos-pxe/download.go:109-113 | one turn either stops with the filesystem unchanged, or continues from a filesystem changed only in the subtrees of the staging entry `c` and the destination entry `c` |
| Unpack.MovedTailReady | src/cmd/smartos-pxe/download.go:109-113 | after one rename the remaining names are still distinct staging entries with free places in the destination |
| Unpack.PublishKeeps | src/cmd/smartos-pxe/download.go:109-114 | renames, failing or not, keep every node outside the subtrees of the staging and destination entries that carry one of the globbed names |
| Unpack.PublishAddsOnlyToDestination | src/cmd/smartos-pxe/download.go:109-114 | renames, failing or not, leave outside the subtrees of the destination entries carrying a globbed name only nodes that were already there, unchanged |
| Unpack.PublishStageFrame | src/cmd/smartos-pxe/download.go:108-115 | publishing followed by clean-up, failing or not, changes nothing outside the staging directory and the destination entries named like the staging entries, and adds nothing outside the latter |
| Unpack.UnpackTarGZ | src/cmd/smartos-pxe/download.go:62-117 | a bad gzip header fails with no write; the tree stays well formed; a successful run leaves no staging directory |
| Unpack.PublishStage | src/cmd/smartos-pxe/download.go:108-116 | keeps the tree well formed and on success removes the staging directory |
| Unpack.UnpackFrame | src/cmd/smartos-pxe/download.go:62-117 | with confined names, a run, failing or not, changes no node outside the staging directory except in the subtrees of the destination entries named like the staging directory's entries; it adds nodes only there, in the staging directory and on the way to it |
| Unpack.UnpackPlacesEntries | src/cmd/smartos-pxe/download.go:62-117 | with confined names and free destination names, a run succeeds and an entry at `stage + rest` ends at `dst + rest`: a directory for a directory entry, and for the last file entry at its target a file with the entry's mode and content |
| Unpack.StagingKeptOnError | src/cmd/smartos-pxe/download.go:76-114 | a run that fails after extraction made the staging directory leaves it behind, wherever the staging directory lies relative to the destination |
| Unpack.PublishKeepsStaging | src/cmd/smartos-pxe/download.go:109-114 | the renames, failing or not, leave the staging directory a directory: moving onto it or an ancestor is refused because those are existing directories |
| Unpack.PublishPlaces | src/cmd/smartos-pxe/download.go:109-114 | for any staging path not at or above the destination, renames that all succeed leave each globbed name as an entry of the destination, outside the staging directory |
| Unpack.PublishInstalls | src/cmd/smartos-pxe/download.go:108-116 | a successful publish and clean-up leaves every entry the staging directory had as an entry of the destination |
| Unpack.UnpackInstalls | src/cmd/smartos-pxe/download.go:62-117 | a successful run, whatever `dstdir` is (empty, with a trailing slash or neither), leaves every top-level entry extraction made as an entry of the destination |
| Download.Version | src/cmd/smartos-pxe/download.go:32-33 | the version is the last element of the trimmed pointer text |
| Download.Target | src/cmd/smartos-pxe/download.go:34 | for any data directory string and a version without slashes, the target's base name is "platform-<version>"; `TargetIsChild` gives the node it names |
| Download.VersionOfPointer | src/cmd/smartos-pxe/download.go:32-33 | a pointer "<dir>/<stamp>" with a trailing newline names the version "<stamp>" |
| Download.VersionExample | src/cmd/smartos-pxe/download.go:32-33 | "foo/20230101T000000Z\n" names version "20230101T000000Z" |
| Download.TrimNewline | src/cmd/smartos-pxe/download.go:32 | trimming removes the newline after the pointer text |
| Download.TargetIsChild | src/cmd/smartos-pxe/download.go:34 | for any data directory string, the install target is the entry "platform-<version>" of the directory it names |
| Download.ArchiveUrl | src/cmd/smartos-pxe/download.go:39 | the URL is the server, the pointer directory, then "/platform-<version>.tgz" |
| Download.DownloadPlatform | src/cmd/smartos-pxe/download.go:18-60 | the pointer is fetched first; the archive is fetched, from `ArchiveUrl` of the trimmed pointer text, exactly when a 200 pointer with a readable body names a version whose target is absent; a 200 archive is unpacked by `UnpackTarGZ` into the data directory with the run's clock reading, a transport error on it is returned and changes nothing; without the archive request nothing changes; the tree stays well formed |
| Download.SkipWhenInstalled | src/cmd/smartos-pxe/download.go:35-37 | an installed version means one request, success and no change |
| Download.StatusErrorsChangeNothing | src/cmd/smartos-pxe/download.go:24-50 | a non-200 status on either request returns its status text and changes nothing |
| Download.InstalledAfterPublish | src/cmd/smartos-pxe/download.go:34-37 | after publishing a staging directory holding platform-<version>, the next run finds the target and skips |
| Download.InstalledThenSkipped | src/cmd/smartos-pxe/download.go:34-59 | for any data directory string, a successful run whose archive puts platform-<version> in the staging directory is followed by a run with the same pointer that requests only the pointer, succeeds and changes nothing |
| Machine.Host.UnpackTarGZ | src/cmd/smartos-pxe/download.go:62-117 | the extraction and publish loops, run on the host's filesystem, end in the state and error `Unpack.UnpackTarGZ` gives |
| Machine.Host.ExtractOne | src/cmd/smartos-pxe/download.go:80-105 | one pass of the extraction loop, applied to the host's filesystem, ends as ExtractEntry says |
| Machine.Host.ExtractAll | src/cmd/smartos-pxe/download.go:71-106 | the extraction loop, applied to the host's filesystem, ends as Extract says; its invariant is that what remains to be extracted gives the same outcome |
| Machine.Host.PublishAll | src/cmd/smartos-pxe/download.go:108-116 | the publish loop and the removal of the staging directory end as PublishStage says |
| Machine.Host.DownloadPlatform | src/cmd/smartos-pxe/download.go:18-60 | the whole download, run on the host's filesystem, ends in the outcome and request list `Download.DownloadPlatform` gives |

## Left out

- HTTP: `http.Get` and reading a body become the `Reply` and `Body` parameters, i.e. a
  transport error or a status with its body. Closing bodies is not modelled.
- gzip and tar decoding: the archive is given decoded, as a bad header, or as the entries plus
  how the stream ended. Header fields other than name, type and mode are ignored. Every entry
  that is not a directory is written as a regular file, as the code does.
- The clock: `time.Now().UnixNano()` is the `nanos` parameter.
- Verbose logging (lines 40-42, 56-58, 91-93) has no effect on behaviour.
- Permissions: the umask, permission checks and ownership are not modelled, so an os call
  never fails for lack of permission. The mode of a node is stored as given.
- `fd.Close()` errors and write errors such as a full disk are left out. A failed copy appears
  only as the entry's read error.
- Symbolic and hard links, special files and other filesystems are not modelled.
- `os.Stat` failing for reasons other than absence is not modelled. The install check is
  membership in the filesystem.
- Concurrency: other processes changing the filesystem during a run are not modelled.
- `filepath.Glob` metacharacters in `dstdir` are not modelled. The globbed paths are the
  staging directory's entries joined to its name, and `Glob`'s ignored error can only arise
  from a bad pattern.
- Go's `filepath` volume names (Windows) are not modelled; paths are Unix paths.
- Unpack.PublishMoves, Unpack.PublishLayout, Download.InstalledAfterPublish: these promise
  success only for disjoint staging and destination trees. An empty `dstdir` or one with a
  trailing slash puts the staging directory inside the destination
  (see `StagingInsideWithTrailingSlash`), and they do not apply. For those layouts,
  `UnpackInstalls` and `InstalledThenSkipped` state where a successful run leaves the staged
  entries, but nothing promises that the run succeeds. Unpack.UnpackPlacesEntries assumes the
  same disjointness, and that the destination is a directory free of the staging directory's
  names.
- Unpack.ExtractConfined, Unpack.UnpackFrame, Unpack.UnpackPlacesEntries: these assume every entry lands inside the staging
  directory. The code does not check this (`EntryEscapes`).
- FilePath.Lookup, Unpack.UnpackTarGZ: path strings are resolved lexically. The kernel instead fails on `x/..`
  when `x` is missing or is a file. Every os call in the code gets a path cleaned by
  `filepath.Join`, except `os.RemoveAll(tmpdir)` (download.go:115). For a `dstdir` such as
  `missing/../data`, Go's `os.RemoveAll` finds nothing to remove and returns nil, so the staging
  directory stays after a successful run. Unpack.UnpackTarGZ's promise that a successful run
  leaves no staging directory therefore holds only for a `dstdir` whose `..` elements each
  follow a directory.
- Text encoding: response bodies and tar names are byte strings in Go and may be invalid
  UTF-8. `strings.TrimSpace` decodes them as runes, so an invalid byte reads as U+FFFD. The
  model takes bodies and names as Unicode strings and does not model invalid encodings.

=== FILE: download.dfy ===
/**
 * `downloadPlatform`: fetch the "latest" pointer, derive the platform
 * version, the install target and the archive URL from it, skip the work
 * when the target already exists, and otherwise fetch the archive and
 * unpack it into the data directory. The two HTTP replies and the
 * filesystem `fs` are parameters; Machine.Host runs the same steps on its
 * own `fs` field.
 */
module Download {
  import opened FilePath
  import opened FileSystem
  import opened Listing
  import opened Unpack

  /** The package-level settings the downloader reads: the download server,
      the path of the "latest" pointer on it, and the data directory. */
  datatype Config = Config(server: string, latestPath: string, datadir: string)

  /** The outcome of reading a whole response body. */
  datatype Body = Body(text: string) | BodyError(msg: string)

  /** The outcome of one http.Get: a transport error, or a response with its
      status code, its status text and its body. */
  datatype Reply<T> = NoReply(msg: string) | Reply(code: int, status: string, body: T)

  const StatusOK: int := 200

  /** The result of a run, with the URLs it requested in order. */
  datatype Run = Run(outcome: Outcome, requests: seq<string>)

  /** The version named by the pointer body: the last element of the
      trimmed text. */
  function Version(body: string): (v: string)
    ensures TrimSpace(body) == "" ==> v == "."
    ensures TrimSpace(body) != "" && AllSlashes(TrimSpace(body)) ==> v == "/"
    ensures !AllSlashes(TrimSpace(body)) ==> LastElement(TrimSpace(body), v)
  {
    Base(TrimSpace(body))
  }

  /** Where a version is installed. */
  function Target(datadir: string, version: string): (t: string)
    // a version without slashes keeps its own entry name in the data directory
    ensures '/' !in version ==> Base(t) == "platform-" + version
  {
    assert '/' !in version ==> Base(Join(datadir, "platform-" + version)) == "platform-" + version by {
      if '/' !in version {
        PlatformName(version);
        BaseJoin(datadir, "platform-" + version);
      }
    }
    Join(datadir, "platform-" + version)
  }

  /** Where the archive of a version is fetched from. */
  function ArchiveUrl(server: string, latestDir: string, version: string): (url: string)
    ensures |url| == |server| + |latestDir| + |version| + 14
    ensures url[..|server|] == server && url[|server|..|server| + |latestDir|] == latestDir
    ensures url[|server| + |latestDir|..|url| - |version| - 4] == "/platform-"
    ensures url[|url| - |version| - 4..] == version + ".tgz"
  {
    server + latestDir + "/platform-" + version + ".tgz"
  }

  /** downloadPlatform on a filesystem `fs`, given the replies to the two
      requests; `nanos` is the clock reading unpackTarGZ takes. */
  function DownloadPlatform(fs: FS, cwd: Path, cfg: Config, nanos: int, pointer: Reply<Body>, archive: Reply<Archive>): (r: Run)
    // the pointer is always requested first, the archive at most once after it
    ensures 1 <= |r.requests| <= 2 && r.requests[0] == cfg.server + cfg.latestPath
    // without fetching the archive nothing changes
    ensures |r.requests| == 1 ==> r.outcome.fs == fs
    // the archive is fetched exactly when a 200 pointer with a readable
    // body names a version whose target is absent, and from its URL
    ensures |r.requests| == 2 <==>
      pointer.Reply? && pointer.code == StatusOK && pointer.body.Body? &&
      Lookup(cwd, Target(cfg.datadir, Version(pointer.body.text))) !in fs
    ensures |r.requests| == 2 ==>
      r.requests[1] == ArchiveUrl(cfg.server, TrimSpace(pointer.body.text), Version(pointer.body.text))
    // a fetched archive that arrives with status 200 is what gets unpacked
    ensures |r.requests| == 2 && archive.Reply? && archive.code == StatusOK ==>
      r.outcome == UnpackTarGZ(fs, cwd, cfg.datadir, nanos, archive.body)
    ensures |r.requests| == 2 && archive.NoReply? ==> r.outcome == Outcome(fs, Some(Network(archive.msg)))
    ensures Wf(fs) ==> Wf(r.outcome.fs)
  {
    var first := [cfg.server + cfg.latestPath];
    match pointer
    case NoReply(msg) => Run(Outcome(fs, Some(Network(msg))), first)
    case Reply(code, status, body) =>
      if code != StatusOK then Run(Outcome(fs, Some(Status(status))), first)
      else match body
        case BodyError(msg) => Run(Outcome(fs, Some(Network(msg))), first)
        case Body(text) =>
          var latestDir := TrimSpace(text);
          var version := Base(latestDir);
          if Lookup(cwd, Target(cfg.datadir, version)) in fs then Run(Outcome(fs, None), first)
          else
            var url := ArchiveUrl(cfg.server, latestDir, version);
            match archive
            case NoReply(msg) => Run(Outcome(fs, Some(Network(msg))), first + [url])
            case Reply(code2, status2, ar) =>
              if code2 != StatusOK then Run(Outcome(fs, Some(Status(status2))), first + [url])
              else Run(UnpackTarGZ(fs, cwd, cfg.datadir, nanos, ar), first + [url])
  }

  // ---------------------------------------------------------------------
  // Properties of the derivation

  /** A pointer body "<dir>/<stamp>" with a trailing newline names the
      version "<stamp>". */
  lemma VersionOfPointer(dir: string, stamp: string)
    requires PlainName(stamp) && dir != "" && !IsSpace(dir[0]) && !IsSpace(stamp[|stamp| - 1])
    ensures Version(dir + "/" + stamp + "\n") == stamp
  {
    var t := dir + "/" + stamp;
    assert t[0] == dir[0] && t[|t| - 1] == stamp[|stamp| - 1];
    TrimNewline(t);
    BaseOfName(dir, stamp);
  }

  /** The pointer body "foo/20230101T000000Z" and a newline. */
  lemma VersionExample()
    ensures Version("foo/20230101T000000Z\n") == "20230101T000000Z"
  {
    var dir, stamp := "foo", "20230101T000000Z";
    assert PlainName(stamp) by { assert '/' !in stamp; }
    assert !IsSpace(dir[0]) && !IsSpace(stamp[|stamp| - 1]);
    assert dir + "/" + stamp + "\n" == "foo/20230101T000000Z\n";
    VersionOfPointer(dir, stamp);
  }

  /** Trimming drops a trailing newline after text that starts and ends
      with something other than white space. */
  lemma TrimNewline(t: string)
    requires t != "" && !IsSpace(t[0]) && !IsSpace(t[|t| - 1])
    ensures TrimSpace(t + "\n") == t
  {
    var s := t + "\n";
    var r := TrimSpace(s);
    assert s[0] == t[0] && s[|t| - 1] == t[|t| - 1] && IsSpace(s[|t|]);
    assert LeadingSpaces(s) == 0;
    assert |r| == |t|;
    assert r == s[..|t|] == t;
  }

  /** "platform-" followed by a slash-free version is a plain name. */
  lemma PlatformName(version: string)
    requires '/' !in version
    ensures PlainName("platform-" + version)
  {
    var n := "platform-" + version;
    assert n[0] == 'p' && |n| >= 9;
    assert forall k :: 0 <= k < |n| ==> n[k] != '/' by {
      forall k | 0 <= k < |n| ensures n[k] != '/' {
        if k >= 9 { assert n[k] == version[k - 9]; }
      }
    }
  }

  /** The install target of a version without slashes is the entry
      "platform-<version>" of the data directory. */
  lemma TargetIsChild(cwd: Path, datadir: string, version: string)
    requires '/' !in version
    ensures Lookup(cwd, Target(datadir, version)) == Lookup(cwd, datadir) + ["platform-" + version]
  {
    PlatformName(version);
    JoinChild(cwd, datadir, "platform-" + version);
  }

  // ---------------------------------------------------------------------
  // Properties of a run

  /** An installed version is not fetched again: the run requests only the
      pointer, succeeds and changes nothing. */
  lemma SkipWhenInstalled(fs: FS, cwd: Path, cfg: Config, nanos: int, status: string, text: string, archive: Reply<Archive>)
    requires Lookup(cwd, Target(cfg.datadir, Version(text))) in fs
    ensures DownloadPlatform(fs, cwd, cfg, nanos, Reply(StatusOK, status, Body(text)), archive) ==
      Run(Outcome(fs, None), [cfg.server + cfg.latestPath])
  {
  }

  /** A status other than 200 on either request is returned as an error
      carrying the status text, and nothing is unpacked. */
  lemma StatusErrorsChangeNothing(fs: FS, cwd: Path, cfg: Config, nanos: int, pointer: Reply<Body>, archive: Reply<Archive>)
    ensures pointer.Reply? && pointer.code != StatusOK ==>
      DownloadPlatform(fs, cwd, cfg, nanos, pointer, archive) ==
      Run(Outcome(fs, Some(Status(pointer.status))), [cfg.server + cfg.latestPath])
    ensures pointer.Reply? && pointer.code == StatusOK && pointer.body.Body? &&
            Lookup(cwd, Target(cfg.datadir, Version(pointer.body.text))) !in fs &&
            archive.Reply? && archive.code != StatusOK ==>
      var latestDir := TrimSpace(pointer.body.text);
      DownloadPlatform(fs, cwd, cfg, nanos, pointer, archive) ==
      Run(Outcome(fs, Some(Status(archive.status))),
          [cfg.server + cfg.latestPath, ArchiveUrl(cfg.server, latestDir, Version(pointer.body.text))])
  {
  }

  /** A successful publish of a staging directory holding
      "platform-<version>" installs that version: a later run with the same
      pointer finds it and skips. */
  lemma InstalledAfterPublish(fs: FS, cwd: Path, tmpdir: string, datadir: string, version: string)
    requires Wf(fs) && PlainKeys(fs) && '/' !in version
    requires Disjoint(Lookup(cwd, tmpdir), Lookup(cwd, datadir))
    requires IsDirAt(fs, Lookup(cwd, tmpdir)) && IsDirAt(fs, Lookup(cwd, datadir))
    requires forall c :: c in Children(fs, Lookup(cwd, tmpdir)) ==> Lookup(cwd, datadir) + [c] !in fs
    requires Lookup(cwd, tmpdir) + ["platform-" + version] in fs
    ensures Lookup(cwd, Target(datadir, version)) in PublishStage(fs, cwd, tmpdir, datadir).fs
  {
    var stage, dst := Lookup(cwd, tmpdir), Lookup(cwd, datadir);
    var q := stage + ["platform-" + version];
    PublishLayout(fs, cwd, tmpdir, datadir);
    TargetIsChild(cwd, datadir, version);
    assert stage < q && q[|stage|..] == ["platform-" + version];
  }

  /** A run that fetches and unpacks an archive whose staging directory
      holds "platform-<version>" installs that version, whatever the data
      directory string is: run again with the same pointer, it finds the
      target, requests only the pointer, and changes nothing. */
  lemma InstalledThenSkipped(fs: FS, cwd: Path, cfg: Config, nanos: int, nanos2: int, status: string, text: string,
                             archive: Reply<Archive>, archive2: Reply<Archive>)
    requires Wf(fs) && PlainKeys(fs) && PlainPath(cwd)
    requires archive.Reply? && archive.body.Stream?
    requires Lookup(cwd, StagingDir(cfg.datadir, nanos)) + ["platform-" + Version(text)]
      in Extract(fs, cwd, StagingDir(cfg.datadir, nanos), archive.body.entries).fs
    ensures var pointer := Reply(StatusOK, status, Body(text));
      var r := DownloadPlatform(fs, cwd, cfg, nanos, pointer, archive);
      r.outcome.err.None? ==>
        DownloadPlatform(r.outcome.fs, cwd, cfg, nanos2, pointer, archive2) ==
        Run(Outcome(r.outcome.fs, None), [cfg.server + cfg.latestPath])
  {
    var pointer := Reply(StatusOK, status, Body(text));
    var r := DownloadPlatform(fs, cwd, cfg, nanos, pointer, archive);
    var v := Version(text);
    var tmpdir := StagingDir(cfg.datadir, nanos);
    var stage := Lookup(cwd, tmpdir);
    var x := Extract(fs, cwd, tmpdir, archive.body.entries);
    var target := Lookup(cwd, Target(cfg.datadir, v));
    if r.outcome.err.None? && target !in fs {
      assert r.outcome == UnpackTarGZ(fs, cwd, cfg.datadir, nanos, archive.body);
      ExtractPlainKeys(fs, cwd, tmpdir, archive.body.entries);
      assert PlainName("platform-" + v) by {
        assert PlainPath(stage + ["platform-" + v]) && (stage + ["platform-" + v])[|stage|] == "platform-" + v;
      }
      SlashFreeVersion(v);
      UnpackInstalls(fs, cwd, cfg.datadir, nanos, archive.body.entries, archive.body.trailer);
      assert "platform-" + v in Children(x.fs, stage);
      TargetIsChild(cwd, cfg.datadir, v);
    }
    if r.outcome.err.None? {
      SkipWhenInstalled(r.outcome.fs, cwd, cfg, nanos2, status, text, archive2);
    }
  }

  /** A version whose entry name "platform-<version>" is plain has no
      slash. */
  lemma SlashFreeVersion(v: string)
    requires PlainName("platform-" + v)
    ensures '/' !in v
  {
    var n := "platform-" + v;
    forall k | 0 <= k < |v|
      ensures v[k] != '/'
    {
      assert v[k] == n[k + 9];
    }
  }
}

=== FILE: fsys.dfy ===
/**
 * The host filesystem as the downloader sees it: a finite map from resolved
 * paths to nodes, and the `os` package operations the installer calls
 * (MkdirAll, Create, Chmod, a write through the open file, Rename,
 * RemoveAll, and the one-level listing behind a glob of a directory's entries),
 * each a function from the old map to the new one or to an error.
 */
module FileSystem {
  import opened FilePath

  newtype byte = x: int | 0 <= x < 256

  /** Permission bits are recorded, not enforced. */
  type Mode = nat

  datatype Node = Dir(mode: Mode) | File(mode: Mode, data: seq<byte>)

  type FS = map<Path, Node>

  /** The errno-like outcomes of the operations modelled here. */
  datatype FsError =
    | NotExist(path: Path)   // ENOENT
    | NotDir(path: Path)     // ENOTDIR
    | IsDir(path: Path)      // EISDIR
    | NotEmpty(path: Path)   // ENOTEMPTY
    | Invalid(path: Path)    // EINVAL
    | Exists(path: Path)     // EEXIST

  datatype Result<T> = Ok(value: T) | Fail(error: FsError)

  /** os.Create asks for 0666; the process umask is not modelled. */
  const CreateMode: Mode := 438

  function Parent(p: Path): Path
    requires p != []
  {
    p[..|p| - 1]
  }

  predicate IsDirAt(fs: FS, p: Path) {
    p in fs && fs[p].Dir?
  }

  predicate IsFileAt(fs: FS, p: Path) {
    p in fs && fs[p].File?
  }

  /** The walk to `p` meets a file: the deepest element of `p`, `p` itself
      included, that exists is a file. The kernel then fails with ENOTDIR;
      when the walk ends at a missing element instead, with ENOENT. */
  predicate FileOnPath(fs: FS, p: Path)
    decreases |p|
  {
    if p in fs then fs[p].File? else p != [] && FileOnPath(fs, Parent(p))
  }

  /** A filesystem is a tree: the root is a directory and every other node
      hangs below a directory. */
  ghost predicate Wf(fs: FS) {
    IsDirAt(fs, []) &&
    forall q {:trigger Hangs(fs, q)} :: q in fs ==> Hangs(fs, q)
  }

  /** `q` is the root or sits in a directory. */
  predicate Hangs(fs: FS, q: Path) {
    q == [] || IsDirAt(fs, Parent(q))
  }

  /** In a tree every proper ancestor of a node is a directory. */
  lemma {:induction false} WfAncestor(fs: FS, q: Path, a: Path)
    requires Wf(fs) && q in fs && a < q
    ensures IsDirAt(fs, a)
    decreases |q|
  {
    assert Hangs(fs, q);
    var pq := Parent(q);
    assert a <= pq;
    if a != pq {
      WfAncestor(fs, pq, a);
    }
  }

  /** Changing a node without changing its kind keeps a tree. */
  lemma WfUpdate(fs: FS, p: Path, n: Node)
    requires Wf(fs) && p in fs && fs[p].Dir? == n.Dir?
    ensures Wf(fs[p := n])
  {
    var r := fs[p := n];
    forall q | q in r ensures Hangs(r, q) {
      assert Hangs(fs, q);
    }
  }

  /** Adding a node inside an existing directory keeps a tree. */
  lemma WfAdd(fs: FS, p: Path, n: Node)
    requires Wf(fs) && p !in fs && p != [] && IsDirAt(fs, Parent(p))
    ensures Wf(fs[p := n])
  {
    var r := fs[p := n];
    forall q | q in r ensures Hangs(r, q) {
      if q != p { assert Hangs(fs, q); }
    }
  }

  /** In a tree the walk to `p` meets a file exactly when one of `p`'s
      ancestors, or `p` itself, is a file. */
  lemma {:induction false} FileOnPathAncestor(fs: FS, p: Path)
    requires Wf(fs)
    ensures FileOnPath(fs, p) <==> exists a :: a <= p && IsFileAt(fs, a)
    decreases |p|
  {
    if p in fs {
      if fs[p].Dir? {
        forall a | a <= p && IsFileAt(fs, a)
          ensures false
        {
          assert a != p;
          WfAncestor(fs, p, a);
        }
      } else {
        assert p <= p && IsFileAt(fs, p);
      }
    } else if p != [] {
      FileOnPathAncestor(fs, Parent(p));
      assert Parent(p) <= p;
      forall a | a <= p && IsFileAt(fs, a)
        ensures a <= Parent(p)
      {
        assert a != p;
      }
    }
  }

  // ---------------------------------------------------------------------
  // The one-level listing

  /** Names of the direct children of `p`. */
  function Children(fs: FS, p: Path): (r: set<string>)
    ensures forall c :: c in r <==> p + [c] in fs
  {
    var r := set q | q in fs && |q| == |p| + 1 && p <= q :: q[|p|];
    assert forall c :: p + [c] in fs ==> c in r by {
      forall c | p + [c] in fs
        ensures c in r
      {
        var q := p + [c];
        assert q[|p|] == c;
      }
    }
    assert forall c :: c in r ==> p + [c] in fs by {
      forall c | c in r
        ensures p + [c] in fs
      {
        var q :| q in fs && |q| == |p| + 1 && p <= q && q[|p|] == c;
        assert q == p + [c];
      }
    }
    r
  }

  /** Below a node of a tree, the first step down is one of its children. */
  lemma DescendantHasChild(fs: FS, p: Path, q: Path)
    requires Wf(fs) && q in fs && p < q
    ensures q[|p|] in Children(fs, p)
  {
    var c := q[..|p| + 1];
    assert c == p + [q[|p|]];
    if c != q {
      WfAncestor(fs, q, c);
    }
  }

  /** In a tree a node below `p` means there is a node at `p`. */
  lemma SubtreeHasRoot(fs: FS, p: Path)
    requires Wf(fs)
    ensures forall q :: q in fs && p <= q ==> p in fs
  {
    forall q | q in fs && p <= q
      ensures p in fs
    {
      if |p| < |q| {
        WfAncestor(fs, q, p);
      } else {
        assert p == q[..|p|] == q;
      }
    }
  }

  // ---------------------------------------------------------------------
  // os.MkdirAll

  /** os.MkdirAll: an existing directory is left alone; otherwise the
      missing ancestors and `p` itself are made, all with `mode`. */
  function MkdirAll(fs: FS, p: Path, mode: Mode): (r: Result<FS>)
    // existing nodes are never touched; what is added are directories on the way to p
    ensures r.Ok? ==> IsDirAt(r.value, p)
    ensures r.Ok? ==> forall q :: q in fs ==> q in r.value && r.value[q] == fs[q]
    ensures r.Ok? ==> forall q :: q in r.value && q !in fs ==> q <= p && r.value[q] == Dir(mode)
    // in a tree it succeeds exactly when no node on the way to p is a file
    ensures Wf(fs) && r.Ok? ==> Wf(r.value) && forall a :: a <= p ==> IsDirAt(r.value, a)
    ensures r.Fail? ==> r.error.NotExist? || (r.error.NotDir? && r.error.path <= p && IsFileAt(fs, r.error.path))
    ensures Wf(fs) ==> r.Fail? ==> r.error.NotDir?
    decreases |p|
  {
    if p in fs then
      if fs[p].Dir? then
        assert Wf(fs) ==> forall a :: a <= p ==> IsDirAt(fs, a) by {
          if Wf(fs) {
            forall a | a <= p ensures IsDirAt(fs, a) {
              if a != p { WfAncestor(fs, p, a); }
            }
          }
        }
        Ok(fs)
      else Fail(NotDir(p))
    else if p == [] then Fail(NotExist(p))
    else
      match MkdirAll(fs, Parent(p), mode)
      case Fail(e) => Fail(e)
      case Ok(fs1) =>
        assert p !in fs1;
        var fs2 := fs1[p := Dir(mode)];
        assert Wf(fs) ==> Wf(fs2) by {
          if Wf(fs) { WfAdd(fs1, p, Dir(mode)); }
        }
        assert forall a :: a <= p && a != p ==> a <= Parent(p) && (IsDirAt(fs2, a) <== IsDirAt(fs1, a));
        Ok(fs2)
  }

  /** Making a directory that MkdirAll has just made changes nothing. */
  lemma MkdirAllIdempotent(fs: FS, p: Path, mode: Mode, mode2: Mode)
    requires MkdirAll(fs, p, mode).Ok?
    ensures MkdirAll(MkdirAll(fs, p, mode).value, p, mode2) == Ok(MkdirAll(fs, p, mode).value)
  {
  }

  // ---------------------------------------------------------------------
  // os.Create, (*File).Chmod and writes through the open file

  /** os.Create: truncates an existing file (keeping its mode), makes an
      empty one with 0666 inside an existing directory, and fails on a
      directory or a missing or non-directory parent. */
  function Create(fs: FS, p: Path): (r: Result<FS>)
    ensures r.Ok? <==> IsFileAt(fs, p) || (p !in fs && p != [] && IsDirAt(fs, Parent(p)))
    ensures r.Ok? ==> r.value.Keys == fs.Keys + {p} && IsFileAt(r.value, p) && r.value[p].data == []
    ensures r.Ok? ==> r.value[p].mode == if p in fs then fs[p].mode else CreateMode
    ensures r.Ok? ==> forall q :: q in fs && q != p ==> r.value[q] == fs[q]
    ensures r.Ok? && Wf(fs) ==> Wf(r.value)
    // the walk to the parent fails with ENOTDIR at a file, ENOENT at a missing directory
    ensures r.Fail? ==> r.error == (if IsDirAt(fs, p) then IsDir(p)
                                   else if p != [] && FileOnPath(fs, Parent(p)) then NotDir(p)
                                   else NotExist(p))
  {
    if p in fs then
      if fs[p].Dir? then Fail(IsDir(p))
      else
        assert Wf(fs) ==> Wf(fs[p := File(fs[p].mode, [])]) by {
          if Wf(fs) { WfUpdate(fs, p, File(fs[p].mode, [])); }
        }
        Ok(fs[p := File(fs[p].mode, [])])
    else if p == [] then Fail(NotExist(p))
    else if IsDirAt(fs, Parent(p)) then
      assert Wf(fs) ==> Wf(fs[p := File(CreateMode, [])]) by {
        if Wf(fs) { WfAdd(fs, p, File(CreateMode, [])); }
      }
      Ok(fs[p := File(CreateMode, [])])
    else if FileOnPath(fs, Parent(p)) then Fail(NotDir(p))
    else Fail(NotExist(p))
  }

  /** Creating /f/d/x where /f is a file fails with ENOTDIR, though the
      parent /f/d does not exist. */
  lemma CreateBelowFileExample()
    ensures Create(map[[] := Dir(0), ["f"] := File(0, [])], ["f", "d", "x"]) == Fail(NotDir(["f", "d", "x"]))
  {
    var fs: FS := map[[] := Dir(0), ["f"] := File(0, [])];
    var p: Path := ["f", "d", "x"];
    assert Parent(p) == ["f", "d"] && Parent(["f", "d"]) == ["f"];
    assert p !in fs && ["f", "d"] !in fs && ["f"] in fs;
    assert FileOnPath(fs, ["f", "d"]);
  }

  /** (*File).Chmod on the file at `p`. */
  function Chmod(fs: FS, p: Path, mode: Mode): (r: Result<FS>)
    ensures r.Ok? <==> p in fs
    ensures r.Ok? ==> r.value.Keys == fs.Keys && r.value[p].mode == mode && r.value[p].Dir? == fs[p].Dir?
    ensures r.Ok? && fs[p].File? ==> r.value[p].data == fs[p].data
    ensures r.Ok? ==> forall q :: q in fs && q != p ==> r.value[q] == fs[q]
    ensures r.Ok? && Wf(fs) ==> Wf(r.value)
  {
    if p !in fs then Fail(NotExist(p))
    else
      var n := if fs[p].Dir? then Dir(mode) else File(mode, fs[p].data);
      assert Wf(fs) ==> Wf(fs[p := n]) by {
        if Wf(fs) { WfUpdate(fs, p, n); }
      }
      Ok(fs[p := n])
  }

  /** Appending bytes through the descriptor of the file at `p`. */
  function Write(fs: FS, p: Path, bytes: seq<byte>): (r: Result<FS>)
    ensures r.Ok? <==> IsFileAt(fs, p)
    ensures r.Ok? ==> r.value.Keys == fs.Keys && r.value[p] == File(fs[p].mode, fs[p].data + bytes)
    ensures r.Ok? ==> forall q :: q in fs && q != p ==> r.value[q] == fs[q]
    ensures r.Ok? && Wf(fs) ==> Wf(r.value)
  {
    if IsFileAt(fs, p) then
      var n := File(fs[p].mode, fs[p].data + bytes);
      assert Wf(fs) ==> Wf(fs[p := n]) by {
        if Wf(fs) { WfUpdate(fs, p, n); }
      }
      Ok(fs[p := n])
    else Fail(NotExist(p))
  }

  // ---------------------------------------------------------------------
  // os.RemoveAll

  /** os.RemoveAll: `p` and everything below it go; a missing `p` is not an
      error. The root itself cannot be removed. */
  function RemoveAll(fs: FS, p: Path): (r: FS)
    ensures forall q :: q in r <==> q in fs && (!(p <= q) || q == [])
    ensures forall q :: q in r ==> r[q] == fs[q]
    ensures Wf(fs) ==> Wf(r)
  {
    var r := map q | q in fs && (!(p <= q) || q == []) :: fs[q];
    assert Wf(fs) ==> Wf(r) by {
      if Wf(fs) {
        forall q | q in r
          ensures Hangs(r, q)
        {
          assert Hangs(fs, q);
          if q != [] { assert Parent(q) <= q; }
        }
      }
    }
    r
  }

  // ---------------------------------------------------------------------
  // os.Rename

  /** The subtree at `src` relocated to `dst`; everything else kept. */
  function Move(fs: FS, src: Path, dst: Path): (r: FS)
    ensures forall rest :: src + rest in fs ==> dst + rest in r && r[dst + rest] == fs[src + rest]
    ensures forall q :: q in fs && !(src <= q) && !(dst <= q) ==> q in r && r[q] == fs[q]
    ensures forall q :: q in r ==>
      (dst <= q && src + q[|dst|..] in fs && r[q] == fs[src + q[|dst|..]]) ||
      (q in fs && !(src <= q) && r[q] == fs[q])
  {
    var kept := map q | q in fs && !(src <= q) :: fs[q];
    var image := set q | q in fs && src <= q :: dst + q[|src|..];
    var moved := map q | q in image && dst <= q && src + q[|dst|..] in fs :: fs[src + q[|dst|..]];
    assert forall rest :: src + rest in fs ==> dst + rest in moved by {
      forall rest | src + rest in fs
        ensures dst + rest in moved
      {
        var q := src + rest;
        assert q[|src|..] == rest;
        assert dst + rest in image;
        assert (dst + rest)[|dst|..] == rest;
      }
    }
    kept + moved
  }

  /** Moving a subtree to a free place below a directory keeps a tree. */
  lemma MoveWf(fs: FS, src: Path, dst: Path)
    requires Wf(fs) && src in fs && src != [] && dst != []
    requires forall q :: q in fs ==> !(dst <= q)
    requires IsDirAt(fs, Parent(dst)) && !(src <= Parent(dst))
    ensures Wf(Move(fs, src, dst))
  {
    var r := Move(fs, src, dst);
    assert !(src <= []) && !(dst <= []);
    forall q | q in r
      ensures Hangs(r, q)
    {
      if q == [] {
      } else if dst <= q {
        MovedParent(fs, src, dst, q);
      } else {
        KeptParent(fs, src, dst, q);
      }
    }
  }

  lemma ParentOfAppend(a: Path, b: Path)
    requires b != []
    ensures Parent(a + b) == a + b[..|b| - 1]
  {
  }

  lemma MovedParent(fs: FS, src: Path, dst: Path, q: Path)
    requires Wf(fs) && src in fs && src != [] && dst != []
    requires IsDirAt(fs, Parent(dst)) && !(src <= Parent(dst))
    requires forall q :: q in fs ==> !(dst <= q)
    requires q in Move(fs, src, dst) && dst <= q
    ensures Hangs(Move(fs, src, dst), q)
  {
    var r := Move(fs, src, dst);
    var rest := q[|dst|..];
    assert q == dst + rest;
    var q0 := src + rest;
    assert q0 in fs && Hangs(fs, q0) by {
      assert q !in fs;
    }
    if rest == [] {
      assert Parent(q) == Parent(dst) && !(dst <= Parent(dst));
    } else {
      var pr := rest[..|rest| - 1];
      ParentOfAppend(src, rest);
      ParentOfAppend(dst, rest);
      assert IsDirAt(fs, src + pr);
      assert IsDirAt(r, dst + pr) by {
        assert r[dst + pr] == fs[src + pr];
      }
    }
  }


  lemma KeptParent(fs: FS, src: Path, dst: Path, q: Path)
    requires Wf(fs) && src != [] && dst != []
    requires forall q :: q in fs ==> !(dst <= q)
    requires q in Move(fs, src, dst) && !(dst <= q) && q != []
    ensures Hangs(Move(fs, src, dst), q)
  {
    assert q in fs && !(src <= q);
    assert Hangs(fs, q);
    var pq := Parent(q);
    assert pq <= q;
    assert !(src <= pq) && !(dst <= pq);
  }

  /** os.Rename on Unix: an existing directory at `dst` is refused with
      EEXIST before the system call, even an empty one and even when `src`
      is `dst` (a missing source is reported first); otherwise rename(2)
      walks to both parents, the source's first, failing with ENOTDIR or
      ENOENT as the walk does, then requires the source to exist; a
      directory cannot move below itself, and an existing file at `dst` is
      replaced only by a file. */
  function Rename(fs: FS, src: Path, dst: Path): (r: Result<FS>)
    ensures r.Ok? <==> (src in fs && !IsDirAt(fs, dst) && (src != [] ==> IsDirAt(fs, Parent(src))) &&
              (src == dst || (!(src < dst) && !(dst < src) && IsDirAt(fs, Parent(dst)) &&
              (dst in fs ==> fs[src].File?))))
    ensures src in fs && IsDirAt(fs, dst) ==> r == Fail(Exists(dst))
    // a walk that meets a file fails with ENOTDIR, one that meets a missing directory with ENOENT
    ensures !IsDirAt(fs, dst) && src != [] && !IsDirAt(fs, Parent(src)) ==>
      r == Fail(if FileOnPath(fs, Parent(src)) then NotDir(src) else NotExist(src))
    ensures !IsDirAt(fs, dst) && (src != [] ==> IsDirAt(fs, Parent(src))) && dst != [] && !IsDirAt(fs, Parent(dst)) ==>
      r == Fail(if FileOnPath(fs, Parent(dst)) then NotDir(dst) else NotExist(dst))
    // on success the subtree at src is found at dst ...
    ensures r.Ok? ==> forall rest :: src + rest in fs ==> dst + rest in r.value && r.value[dst + rest] == fs[src + rest]
    // ... and nowhere else: nothing new appears outside dst, nothing outside src and dst is lost
    ensures r.Ok? ==> forall q :: q in r.value && !(dst <= q) ==> q in fs && r.value[q] == fs[q]
    ensures r.Ok? && src != dst ==> forall q :: q in r.value && dst <= q ==>
      src + q[|dst|..] in fs && r.value[q] == fs[src + q[|dst|..]]
    ensures r.Ok? ==> forall q :: q in fs && !(src <= q) && !(dst <= q) ==> q in r.value
    ensures r.Ok? && Wf(fs) ==> Wf(r.value)
  {
    if IsDirAt(fs, dst) then
      if src in fs then Fail(Exists(dst))
      else Fail(if src != [] && FileOnPath(fs, Parent(src)) then NotDir(src) else NotExist(src))
    else if src != [] && !IsDirAt(fs, Parent(src)) then
      Fail(if FileOnPath(fs, Parent(src)) then NotDir(src) else NotExist(src))
    else if dst != [] && !IsDirAt(fs, Parent(dst)) then
      Fail(if FileOnPath(fs, Parent(dst)) then NotDir(dst) else NotExist(dst))
    else if src !in fs then Fail(NotExist(src))
    else if src == dst then Ok(fs)
    else if src < dst then Fail(Invalid(dst))
    else if dst < src then Fail(NotEmpty(dst))
    else if dst in fs && fs[src].Dir? then Fail(NotDir(dst))
    else
      var fs1 := RemoveAll(fs, dst);
      assert src in fs1 && !(dst <= src);
      var r := Move(fs1, src, dst);
      assert Wf(fs) ==> Wf(r) by {
        if Wf(fs) {
          assert !(src <= Parent(dst));
          MoveWf(fs1, src, dst);
        }
      }
      Ok(r)
  }

  /** A successful rename removes the source unless it renames in place. */
  lemma RenameRemovesSource(fs: FS, src: Path, dst: Path)
    requires Rename(fs, src, dst).Ok? && src != dst
    ensures forall q :: src <= q ==> q !in Rename(fs, src, dst).value
  {
  }
}

=== FILE: host.dfy ===
/**
 * The program as it runs: a host whose filesystem the os calls change in
 * place, with `downloadPlatform` and `unpackTarGZ` as methods that perform
 * the steps one by one and are proved to end in the state the
 * specification functions of `Download` and `Unpack` describe.
 */
module Machine {
  import opened FilePath
  import opened FileSystem
  import opened Unpack
  import opened Download

  /** The machine the downloader runs on: its filesystem, changed in place
      by the os calls, and the process's working directory. */
  class Host {
    var fs: FS
    const cwd: Path

    constructor (fs0: FS, cwd0: Path)
      ensures fs == fs0 && cwd == cwd0
    {
      fs := fs0;
      cwd := cwd0;
    }

    /** unpackTarGZ(dstdir, r), started at clock reading `nanos`, on a body
        that decodes to `ar`. */
    method UnpackTarGZ(dstdir: string, nanos: int, ar: Archive) returns (err: Option<Error>)
      modifies this
      ensures Outcome(fs, err) == Unpack.UnpackTarGZ(old(fs), cwd, dstdir, nanos, ar)
      ensures ar.BadHeader? ==> fs == old(fs) && err == Some(Gzip(ar.msg))
    {
      var tmpdir := StagingDir(dstdir, nanos);
      if ar.BadHeader? {
        return Some(Gzip(ar.msg));
      }
      err := ExtractAll(tmpdir, ar.entries);
      if err.Some? {
        return;
      }
      if ar.trailer.Some? {
        return Some(Tar(ar.trailer.value));
      }
      err := PublishAll(tmpdir, dstdir);
    }

    /** The body of the extraction loop for one entry at `path`. */
    method ExtractOne(path: Path, e: Entry) returns (err: Option<Error>)
      modifies this
      ensures Outcome(fs, err) == ExtractEntry(old(fs), path, e)
    {
      if e.isDir {
        var r := MkdirAll(fs, path, e.mode);
        if r.Fail? {
          return Some(Fs(r.error));
        }
        fs := r.value;
        return None;
      }
      var r := Create(fs, path);
      if r.Fail? {
        return Some(Fs(r.error));
      }
      fs := Chmod(r.value, path, e.mode).value;
      fs := Write(fs, path, e.content).value;
      if e.readError.Some? {
        return Some(Tar(e.readError.value));
      }
      return None;
    }

    /** The extraction loop over the entries the tar reader yields. */
    method ExtractAll(tmpdir: string, es: seq<Entry>) returns (err: Option<Error>)
      modifies this
      ensures Outcome(fs, err) == Extract(old(fs), cwd, tmpdir, es)
    {
      var i := 0;
      while i < |es|
        invariant 0 <= i <= |es|
        invariant Extract(old(fs), cwd, tmpdir, es) == Extract(fs, cwd, tmpdir, es[i..])
      {
        var e := es[i];
        assert es[i..][0] == e && es[i..][1..] == es[i + 1..];
        err := ExtractOne(Lookup(cwd, Join(tmpdir, e.name)), e);
        if err.Some? {
          return;
        }
        i := i + 1;
      }
      return None;
    }

    /** The publish loop over the globbed staging entries, then the removal
        of the staging directory. */
    method PublishAll(tmpdir: string, dstdir: string) returns (err: Option<Error>)
      modifies this
      ensures Outcome(fs, err) == PublishStage(old(fs), cwd, tmpdir, dstdir)
    {
      var stage := Lookup(cwd, tmpdir);
      var tgts := GlobNames(fs, stage);
      var j := 0;
      while j < |tgts|
        invariant 0 <= j <= |tgts|
        invariant Publish(old(fs), cwd, tmpdir, dstdir, tgts) == Publish(fs, cwd, tmpdir, dstdir, tgts[j..])
      {
        var tgt := Join(tmpdir, tgts[j]);
        var base := Base(tgt);
        assert tgts[j..][0] == tgts[j] && tgts[j..][1..] == tgts[j + 1..];
        var r := Rename(fs, Lookup(cwd, tgt), Lookup(cwd, Join(dstdir, base)));
        if r.Fail? {
          return Some(Fs(r.error));
        }
        fs := r.value;
        j := j + 1;
      }
      fs := RemoveAll(fs, stage);
      return None;
    }

    /** downloadPlatform, given the replies to its two requests; returns the
        error and the URLs it requested. */
    method DownloadPlatform(cfg: Config, nanos: int, pointer: Reply<Body>, archive: Reply<Archive>)
      returns (err: Option<Error>, requests: seq<string>)
      modifies this
      ensures Run(Outcome(fs, err), requests) == Download.DownloadPlatform(old(fs), cwd, cfg, nanos, pointer, archive)
    {
      requests := [cfg.server + cfg.latestPath];
      if pointer.NoReply? {
        return Some(Network(pointer.msg)), requests;
      }
      if pointer.code != StatusOK {
        return Some(Status(pointer.status)), requests;
      }
      if pointer.body.BodyError? {
        return Some(Network(pointer.body.msg)), requests;
      }
      var latestDir := TrimSpace(pointer.body.text);
      var version := Base(latestDir);
      var want := Join(cfg.datadir, "platform-" + version);
      if Lookup(cwd, want) in fs {
        return None, requests;
      }
      var url := cfg.server + latestDir + "/platform-" + version + ".tgz";
      requests := requests + [url];
      if archive.NoReply? {
        return Some(Network(archive.msg)), requests;
      }
      if archive.code != StatusOK {
        return Some(Status(archive.status)), requests;
      }
      err := UnpackTarGZ(cfg.datadir, nanos, archive.body);
    }
  }
}

=== FILE: listing.dfy ===
/**
 * The order in which `filepath.Glob` returns directory entries: names are
 * sorted with `sort.Strings`, i.e. lexicographically by code point (which
 * is the byte order of their UTF-8 encoding).
 */
module Listing {

  /** `a` sorts before or equal to `b`. */
  predicate LexLe(a: string, b: string)
    decreases |a|
  {
    |a| == 0 || (|b| > 0 && (a[0] < b[0] || (a[0] == b[0] && LexLe(a[1..], b[1..]))))
  }

  lemma {:induction false} LexLeTotal(a: string, b: string)
    ensures LexLe(a, b) || LexLe(b, a)
    decreases |a|
  {
    if |a| > 0 && |b| > 0 && a[0] == b[0] {
      LexLeTotal(a[1..], b[1..]);
    }
  }

  lemma {:induction false} LexLeAntisymmetric(a: string, b: string)
    requires LexLe(a, b) && LexLe(b, a)
    ensures a == b
    decreases |a|
  {
    if |a| > 0 {
      LexLeAntisymmetric(a[1..], b[1..]);
      assert a == [a[0]] + a[1..] && b == [b[0]] + b[1..];
    }
  }

  lemma {:induction false} LexLeTransitive(a: string, b: string, c: string)
    requires LexLe(a, b) && LexLe(b, c)
    ensures LexLe(a, c)
    decreases |a|
  {
    if |a| > 0 && a[0] == b[0] && b[0] == c[0] {
      LexLeTransitive(a[1..], b[1..], c[1..]);
    }
  }

  predicate IsLeast(m: string, s: set<string>) {
    m in s && forall x :: x in s ==> LexLe(m, x)
  }

  /** The first name of a non-empty set in sorted order. */
  ghost function Least(s: set<string>): (m: string)
    requires s != {}
    ensures IsLeast(m, s)
    decreases |s|
  {
    var x :| x in s;
    if s == {x} then
      LexLeTotal(x, x);
      x
    else
      var m := Least(s - {x});
      LexLeTotal(x, m);
      if LexLe(x, m) then
        assert forall y :: y in s - {x} ==> LexLe(x, y) by {
          forall y | y in s - {x} ensures LexLe(x, y) { LexLeTransitive(x, m, y); }
        }
        LexLeTotal(x, x);
        x
      else
        m
  }

  /** A non-empty set has exactly one least name. */
  lemma LeastExistsUnique(s: set<string>)
    requires s != {}
    ensures exists m :: IsLeast(m, s)
    ensures forall m, m' :: IsLeast(m, s) && IsLeast(m', s) ==> m == m'
  {
    assert IsLeast(Least(s), s);
    forall m, m' | IsLeast(m, s) && IsLeast(m', s)
      ensures m == m'
    {
      LexLeAntisymmetric(m, m');
    }
  }

  /** A set of names as the sorted sequence `filepath.Glob` returns. */
  function SortedNames(s: set<string>): (r: seq<string>)
    ensures |r| == |s|
    ensures forall x :: x in s <==> x in r
    ensures forall i, j :: 0 <= i < j < |r| ==> LexLe(r[i], r[j]) && r[i] != r[j]
    decreases |s|
  {
    if s == {} then []
    else
      LeastExistsUnique(s);
      var m :| IsLeast(m, s);
      var rest := SortedNames(s - {m});
      SortedCons(m, rest);
      [m] + rest
  }

  /** A name below every name of a strictly ascending list, and different
      from all of them, can be put in front of it. */
  lemma SortedCons(m: string, rest: seq<string>)
    requires forall x :: x in rest ==> LexLe(m, x) && x != m
    requires forall i, j :: 0 <= i < j < |rest| ==> LexLe(rest[i], rest[j]) && rest[i] != rest[j]
    ensures var r := [m] + rest;
      forall i, j :: 0 <= i < j < |r| ==> LexLe(r[i], r[j]) && r[i] != r[j]
  {
    var r := [m] + rest;
    forall i, j | 0 <= i < j < |r|
      ensures LexLe(r[i], r[j]) && r[i] != r[j]
    {
      assert r[j] == rest[j - 1];
      if i > 0 {
        assert r[i] == rest[i - 1];
      }
    }
  }
}

=== FILE: paths.dfy ===
/**
 * String-level path handling used by the platform downloader: whitespace
 * trimming of the "latest" pointer, `filepath.Base`, `filepath.Clean`,
 * `filepath.Join` (slash-separated, as on a Unix host), decimal formatting
 * of the staging timestamp, and the resolution of a path string to the
 * absolute list of segments that the filesystem model is keyed by.
 */
module FilePath {

  /** An absolute, resolved location: the names from the root downwards. */
  type Path = seq<string>

  // ---------------------------------------------------------------------
  // strings.TrimSpace

  /** Go's unicode.IsSpace: the ASCII blanks, NEL, NBSP and the Unicode
      White_Space characters outside Latin-1. */
  predicate IsSpace(c: char) {
    var n := c as int;
    n == 9 || n == 10 || n == 11 || n == 12 || n == 13 || n == 32 ||
    n == 0x85 || n == 0xA0 || n == 0x1680 || (0x2000 <= n <= 0x200A) ||
    n == 0x2028 || n == 0x2029 || n == 0x202F || n == 0x205F || n == 0x3000
  }

  /** Number of white-space characters at the front of `s`. */
  function LeadingSpaces(s: string): (n: nat)
    ensures n <= |s|
    ensures forall k :: 0 <= k < n ==> IsSpace(s[k])
    ensures n < |s| ==> !IsSpace(s[n])
  {
    if |s| > 0 && IsSpace(s[0]) then 1 + LeadingSpaces(s[1..]) else 0
  }

  /** Number of white-space characters at the back of `s`. */
  function TrailingSpaces(s: string): (n: nat)
    ensures n <= |s|
    ensures forall k :: |s| - n <= k < |s| ==> IsSpace(s[k])
    ensures n < |s| ==> !IsSpace(s[|s| - n - 1])
  {
    if |s| > 0 && IsSpace(s[|s| - 1]) then 1 + TrailingSpaces(s[..|s| - 1]) else 0
  }

  /** strings.TrimSpace: the longest infix of `s` that neither starts nor
      ends with white space, everything cut away being white space. */
  function TrimSpace(s: string): (r: string)
    ensures var i := LeadingSpaces(s);
      i + |r| <= |s| && r == s[i..i + |r|] &&
      (forall k :: 0 <= k < i || i + |r| <= k < |s| ==> IsSpace(s[k]))
    ensures r == [] || (!IsSpace(r[0]) && !IsSpace(r[|r| - 1]))
  {
    var t := s[LeadingSpaces(s)..];
    t[..|t| - TrailingSpaces(t)]
  }

  // ---------------------------------------------------------------------
  // filepath.Base

  predicate AllSlashes(s: string) {
    forall k :: 0 <= k < |s| ==> s[k] == '/'
  }

  /** `s` without its trailing slashes. */
  function StripSlashes(s: string): (r: string)
    ensures |r| <= |s| && r == s[..|r|]
    ensures forall k :: |r| <= k < |s| ==> s[k] == '/'
    ensures r == [] || r[|r| - 1] != '/'
  {
    if |s| > 0 && s[|s| - 1] == '/' then StripSlashes(s[..|s| - 1]) else s
  }

  /** The part of `s` after its last slash (all of `s` if it has none). */
  function AfterLastSlash(s: string): (r: string)
    ensures |r| <= |s| && r == s[|s| - |r|..]
    ensures '/' !in r
    ensures |r| < |s| ==> s[|s| - |r| - 1] == '/'
  {
    if |s| == 0 then s
    else if s[|s| - 1] == '/' then []
    else AfterLastSlash(s[..|s| - 1]) + [s[|s| - 1]]
  }

  /** filepath.Base: "." for the empty path, "/" for a path of slashes
      only, otherwise the last element once trailing slashes are gone. */
  /** `r` is the last element of `p`, trailing slashes ignored: a
      non-empty slash-free suffix that is all of it or follows a slash. */
  predicate LastElement(p: string, r: string) {
    var t := StripSlashes(p);
    r != "" && '/' !in r && |r| <= |t| && t[|t| - |r|..] == r &&
    (|r| == |t| || t[|t| - |r| - 1] == '/')
  }

  function Base(p: string): (r: string)
    ensures p == "" ==> r == "."
    ensures p != "" && AllSlashes(p) ==> r == "/"
    ensures !AllSlashes(p) ==> LastElement(p, r)
  {
    if p == "" then "."
    else
      var t := StripSlashes(p);
      if t == [] then
        assert AllSlashes(p);
        "/"
      else
        AfterLastSlash(t)
  }

  // ---------------------------------------------------------------------
  // strings.Split(s, "/") and its inverse strings.Join(xs, "/")

  /** The pieces of `s` between slashes, empty pieces included. */
  function Split(s: string): (r: seq<string>)
    ensures |r| >= 1
    ensures forall i :: 0 <= i < |r| ==> '/' !in r[i]
  {
    if s == [] then [""]
    else if s[0] == '/' then [""] + Split(s[1..])
    else
      var rest := Split(s[1..]);
      [[s[0]] + rest[0]] + rest[1..]
  }

  /** The pieces of `xs` separated by single slashes. */
  function JoinSegs(xs: seq<string>): string
    requires |xs| >= 1
  {
    if |xs| == 1 then xs[0] else xs[0] + "/" + JoinSegs(xs[1..])
  }

  predicate NoSlashes(xs: seq<string>) {
    forall i :: 0 <= i < |xs| ==> '/' !in xs[i]
  }

  /** A slash between two strings separates their pieces. */
  lemma {:induction false} SplitSlash(a: string, b: string)
    ensures Split(a + "/" + b) == Split(a) + Split(b)
    decreases |a|
  {
    var s := a + "/" + b;
    if a == [] {
      assert s == "/" + b && s[1..] == b;
    } else {
      assert s[0] == a[0] && s[1..] == a[1..] + "/" + b;
      SplitSlash(a[1..], b);
    }
  }

  /** Text without slashes appended to `s` extends its last piece. */
  lemma {:induction false} SplitExtendLast(s: string, t: string)
    requires '/' !in t
    ensures var xs := Split(s);
      Split(s + t) == xs[..|xs| - 1] + [xs[|xs| - 1] + t]
    decreases |s|
  {
    if s == [] {
      SplitSingle(t);
      assert s + t == t;
    } else {
      var c, r := s[0], s[1..];
      assert s == [c] + r && s + t == [c] + (r + t);
      SplitExtendLast(r, t);
      SplitCons(c, r);
      SplitCons(c, r + t);
      ExtendAfterCons(c, Split(r), t);
    }
  }

  /** How one more character in front changes the pieces. */
  function ConsPiece(c: char, ys: seq<string>): (r: seq<string>)
    requires |ys| >= 1
    ensures |r| >= |ys|
  {
    if c == '/' then [""] + ys else [[c] + ys[0]] + ys[1..]
  }

  lemma SplitCons(c: char, r: string)
    ensures Split([c] + r) == ConsPiece(c, Split(r))
  {
    assert ([c] + r)[0] == c && ([c] + r)[1..] == r;
  }

  lemma ExtendAfterCons(c: char, ys: seq<string>, t: string)
    requires |ys| >= 1
    ensures var xs := ConsPiece(c, ys);
      ConsPiece(c, ys[..|ys| - 1] + [ys[|ys| - 1] + t]) == xs[..|xs| - 1] + [xs[|xs| - 1] + t]
  {
    if c != '/' && |ys| == 1 {
      assert [c] + (ys[0] + t) == ([c] + ys[0]) + t;
    }
  }

  lemma {:induction false} SplitJoin(xs: seq<string>)
    requires |xs| >= 1 && NoSlashes(xs)
    ensures Split(JoinSegs(xs)) == xs
  {
    if |xs| == 1 {
      SplitSingle(xs[0]);
    } else {
      SplitJoin(xs[1..]);
      SplitSlash(xs[0], JoinSegs(xs[1..]));
      SplitSingle(xs[0]);
    }
  }

  lemma {:induction false} SplitSingle(a: string)
    requires '/' !in a
    ensures Split(a) == [a]
  {
    if a != [] {
      SplitSingle(a[1..]);
      assert [a[0]] + a[1..] == a;
    }
  }

  // ---------------------------------------------------------------------
  // Resolution of a path string against the filesystem's root

  /** A name that can label a filesystem node. */
  predicate PlainName(x: string) {
    x != "" && x != "." && x != ".." && '/' !in x
  }

  predicate PlainPath(p: Path) {
    forall i :: 0 <= i < |p| ==> PlainName(p[i])
  }

  predicate Rooted(s: string) {
    |s| > 0 && s[0] == '/'
  }

  /** Lexical resolution of one more element of a path:
      "" and "." stay put, ".." goes to the parent (the root is its own
      parent), any other name descends. */
  function ResolveStep(base: Path, x: string): Path {
    if x == "" || x == "." then base
    else if x == ".." then (if base == [] then [] else base[..|base| - 1])
    else base + [x]
  }

  function Resolve(base: Path, xs: seq<string>): (r: Path)
    requires NoSlashes(xs)
    ensures PlainPath(base) ==> PlainPath(r)
    decreases |xs|
  {
    if xs == [] then base else Resolve(ResolveStep(base, xs[0]), xs[1..])
  }

  /** The node a path string names, relative paths being taken from the
      process's working directory `cwd`. */
  function Lookup(cwd: Path, s: string): (r: Path)
    ensures PlainPath(cwd) ==> PlainPath(r)
  {
    Resolve(if Rooted(s) then [] else cwd, Split(s))
  }

  lemma {:induction false} ResolveAppend(base: Path, xs: seq<string>, x: string)
    requires NoSlashes(xs) && '/' !in x
    ensures Resolve(base, xs + [x]) == ResolveStep(Resolve(base, xs), x)
    decreases |xs|
  {
    if xs == [] {
      assert xs + [x] == [x];
    } else {
      assert (xs + [x])[1..] == xs[1..] + [x];
      ResolveAppend(ResolveStep(base, xs[0]), xs[1..], x);
    }
  }

  lemma {:induction false} ResolveConcat(base: Path, xs: seq<string>, ys: seq<string>)
    requires NoSlashes(xs) && NoSlashes(ys)
    ensures Resolve(base, xs + ys) == Resolve(Resolve(base, xs), ys)
    decreases |xs|
  {
    if xs == [] {
      assert xs + ys == ys;
    } else {
      assert (xs + ys)[1..] == xs[1..] + ys;
      ResolveConcat(ResolveStep(base, xs[0]), xs[1..], ys);
    }
  }

  /** Without a ".." element a path never climbs above where it starts. */
  lemma {:induction false} ResolveBelow(base: Path, xs: seq<string>)
    requires NoSlashes(xs)
    requires forall i :: 0 <= i < |xs| ==> xs[i] != ".."
    ensures base <= Resolve(base, xs)
    decreases |xs|
  {
    if xs != [] {
      ResolveBelow(ResolveStep(base, xs[0]), xs[1..]);
    }
  }

  // ---------------------------------------------------------------------
  // filepath.Clean and filepath.Join

  /** The shape of Clean's output elements: plain names, preceded in a
      relative path by ".." elements. */
  predicate CleanShape(rooted: bool, acc: seq<string>) {
    forall i :: 0 <= i < |acc| ==> PlainName(acc[i]) || (!rooted && acc[i] == "..")
  }

  /** One element of Clean's scan: drop "" and ".", let ".." cancel the
      previous real element, drop it at the root, keep it otherwise. */
  function CleanStep(rooted: bool, acc: seq<string>, x: string): (r: seq<string>)
    requires '/' !in x && CleanShape(rooted, acc)
    ensures CleanShape(rooted, r)
  {
    if x == "" || x == "." then acc
    else if x == ".." then
      if |acc| > 0 && acc[|acc| - 1] != ".." then acc[..|acc| - 1]
      else if rooted then acc
      else acc + [".."]
    else acc + [x]
  }

  function CleanSegs(rooted: bool, acc: seq<string>, xs: seq<string>): (r: seq<string>)
    requires NoSlashes(xs) && CleanShape(rooted, acc)
    ensures CleanShape(rooted, r)
    decreases |xs|
  {
    if xs == [] then acc
    else CleanSegs(rooted, CleanStep(rooted, acc, xs[0]), xs[1..])
  }

  /** filepath.Clean: the shortest equivalent path, "." for nothing. */
  function Clean(s: string): (r: string)
    ensures r != ""
    ensures Rooted(r) == Rooted(s)
  {
    var rooted := Rooted(s);
    var segs := CleanSegs(rooted, [], Split(s));
    if segs == [] then (if rooted then "/" else ".")
    else
      assert segs[0] != "" && '/' !in segs[0];
      assert JoinSegs(segs)[0] == segs[0][0] by { JoinHead(segs); }
      (if rooted then "/" else "") + JoinSegs(segs)
  }

  lemma {:induction false} JoinHead(xs: seq<string>)
    requires |xs| >= 1 && xs[0] != ""
    ensures |JoinSegs(xs)| > 0 && JoinSegs(xs)[0] == xs[0][0]
  {
  }

  /** filepath.Join of two elements: the empty elements are skipped and the
      rest joined with a slash and cleaned. */
  function Join(a: string, b: string): (r: string)
    ensures a != "" || b != "" ==> r != ""
  {
    if a != "" then Clean(a + "/" + b)
    else if b != "" then Clean(b)
    else ""
  }

  /** Clean's scan and lexical resolution agree. */
  lemma {:induction false} ResolveCleanSegs(rooted: bool, base: Path, acc: seq<string>, xs: seq<string>)
    requires NoSlashes(xs) && CleanShape(rooted, acc)
    requires rooted ==> base == []
    ensures NoSlashes(CleanSegs(rooted, acc, xs)) && NoSlashes(acc)
    ensures Resolve(base, CleanSegs(rooted, acc, xs)) == Resolve(Resolve(base, acc), xs)
    decreases |xs|
  {
    if xs != [] {
      var x := xs[0];
      var acc' := CleanStep(rooted, acc, x);
      ResolveCleanStep(rooted, base, acc, x);
      ResolveCleanSegs(rooted, base, acc', xs[1..]);
    }
  }

  /** One step of Clean's scan resolves like the element it consumes. */
  lemma ResolveCleanStep(rooted: bool, base: Path, acc: seq<string>, x: string)
    requires '/' !in x && CleanShape(rooted, acc)
    requires rooted ==> base == []
    ensures NoSlashes(acc) && NoSlashes(CleanStep(rooted, acc, x))
    ensures Resolve(base, CleanStep(rooted, acc, x)) == ResolveStep(Resolve(base, acc), x)
  {
    assert NoSlashes(acc);
    assert NoSlashes(CleanStep(rooted, acc, x));
    if x == "" || x == "." {
    } else if x == ".." {
      if |acc| > 0 && acc[|acc| - 1] != ".." {
        var init := acc[..|acc| - 1];
        assert acc == init + [acc[|acc| - 1]];
        ResolveAppend(base, init, acc[|acc| - 1]);
      } else if rooted {
        assert acc == [];
      } else {
        ResolveAppend(base, acc, x);
      }
    } else {
      ResolveAppend(base, acc, x);
    }
  }

  /** Cleaning a path does not change what it names. */
  lemma LookupClean(cwd: Path, s: string)
    ensures Lookup(cwd, Clean(s)) == Lookup(cwd, s)
  {
    var rooted := Rooted(s);
    var base: Path := if rooted then [] else cwd;
    var segs := CleanSegs(rooted, [], Split(s));
    ResolveCleanSegs(rooted, base, [], Split(s));
    var c := Clean(s);
    if segs == [] {
      if rooted {
        assert c == "/" && c[1..] == "";
        assert Split(c) == ["", ""];
        assert Resolve([], ["", ""]) == [];
        assert Lookup(cwd, c) == [];
        assert Resolve([], []) == [];
        assert Lookup(cwd, s) == [];
      } else {
        SplitSingle(c);
        assert Lookup(cwd, c) == Resolve(cwd, ["."]) == cwd;
        assert Lookup(cwd, s) == Resolve(cwd, []);
      }
    } else {
      SplitJoin(segs);
      assert segs[0] != "";
      JoinHead(segs);
      if rooted {
        assert c == "/" + JoinSegs(segs) && c[1..] == JoinSegs(segs);
        assert Split(c) == [""] + segs;
        assert Lookup(cwd, c) == Resolve([], [""] + segs) == Resolve([], segs);
      } else {
        assert c == JoinSegs(segs) && !Rooted(c);
      }
    }
  }

  /** Joining a plain name to a path names that path's child; the empty
      path names the working directory. */
  lemma JoinChild(cwd: Path, a: string, b: string)
    requires PlainName(b)
    ensures Lookup(cwd, Join(a, b)) == Lookup(cwd, a) + [b]
  {
    SplitSingle(b);
    if a != "" {
      LookupClean(cwd, a + "/" + b);
      SplitSlash(a, b);
      ResolveAppend(if Rooted(a) then [] else cwd, Split(a), b);
    } else {
      CleanName(b);
      assert Split(a) == [""] && Resolve(cwd, [""]) == Resolve(cwd, []);
      assert Resolve(cwd, [b]) == Resolve(cwd + [b], []);
    }
  }

  /** A plain name is already clean. */
  lemma CleanName(c: string)
    requires PlainName(c)
    ensures Clean(c) == c
  {
    SplitSingle(c);
    assert c[0] != '/';
    assert CleanSegs(false, [], [c]) == CleanSegs(false, [c], []);
  }

  /** Joining any name to a non-empty path resolves the name's elements
      from that path. */
  lemma JoinResolve(cwd: Path, a: string, b: string)
    requires a != ""
    ensures Lookup(cwd, Join(a, b)) == Resolve(Lookup(cwd, a), Split(b))
  {
    LookupClean(cwd, a + "/" + b);
    SplitSlash(a, b);
    ResolveConcat(if Rooted(a) then [] else cwd, Split(a), Split(b));
  }

  lemma {:induction false} CleanSegsAppend(rooted: bool, acc: seq<string>, xs: seq<string>, c: string)
    requires NoSlashes(xs) && CleanShape(rooted, acc) && PlainName(c)
    ensures NoSlashes(xs + [c])
    ensures CleanSegs(rooted, acc, xs + [c]) == CleanSegs(rooted, acc, xs) + [c]
    decreases |xs|
  {
    if xs == [] {
      assert xs + [c] == [c];
    } else {
      assert (xs + [c])[1..] == xs[1..] + [c];
      CleanSegsAppend(rooted, CleanStep(rooted, acc, xs[0]), xs[1..], c);
    }
  }

  lemma {:induction false} JoinSegsSnoc(ys: seq<string>, c: string)
    requires |ys| >= 1
    ensures JoinSegs(ys + [c]) == JoinSegs(ys) + "/" + c
  {
    if |ys| > 1 {
      assert (ys + [c])[1..] == ys[1..] + [c];
      JoinSegsSnoc(ys[1..], c);
    }
  }

  lemma {:induction false} AfterSlash(t: string, c: string)
    requires '/' !in c
    ensures AfterLastSlash(t + "/" + c) == c
    ensures AfterLastSlash(c) == c
    decreases |c|
  {
    var s := t + "/" + c;
    if c != [] {
      var c', x := c[..|c| - 1], c[|c| - 1];
      assert x in c && s[|s| - 1] == x;
      assert s[..|s| - 1] == t + "/" + c';
      AfterSlash(t, c');
      assert c' + [x] == c;
      assert AfterLastSlash(s) == AfterLastSlash(t + "/" + c') + [x];
      assert AfterLastSlash(c) == AfterLastSlash(c') + [x];
    } else {
      assert s[|s| - 1] == '/';
    }
  }

  lemma JoinEndsWithName(a: string, c: string) returns (t: string)
    requires a != "" && PlainName(c)
    ensures Join(a, c) == c || Join(a, c) == t + "/" + c
  {
    var s := a + "/" + c;
    var rooted := Rooted(s);
    var ys := CleanSegs(rooted, [], Split(a));
    assert CleanSegs(rooted, [], Split(s)) == ys + [c] by {
      SplitSlash(a, c);
      SplitSingle(c);
      CleanSegsAppend(rooted, [], Split(a), c);
    }
    assert Join(a, c) == (if rooted then "/" else "") + JoinSegs(ys + [c]);
    if ys == [] {
      assert JoinSegs(ys + [c]) == c;
      t := "";
    } else {
      JoinSegsSnoc(ys, c);
      t := (if rooted then "/" else "") + JoinSegs(ys);
    }
  }

  lemma BaseOfName(t: string, c: string)
    requires PlainName(c)
    ensures Base(t + "/" + c) == c && Base(c) == c
  {
    AfterSlash(t, c);
    assert StripSlashes(t + "/" + c) == t + "/" + c;
    assert StripSlashes(c) == c;
  }

  /** The last element of a path joined with a plain name is that name. */
  lemma BaseJoin(a: string, c: string)
    requires PlainName(c)
    ensures Base(Join(a, c)) == c
  {
    if a != "" {
      var t := JoinEndsWithName(a, c);
      BaseOfName(t, c);
    } else {
      CleanName(c);
      BaseOfName("", c);
    }
  }

  // ---------------------------------------------------------------------
  // fmt's %d

  function DigitChar(d: nat): (c: char)
    requires d < 10
    ensures '0' <= c <= '9'
  {
    (48 + d) as char
  }

  /** The decimal digits of `n`, most significant first, no leading zero. */
  function Digits(n: nat): (r: string)
    ensures |r| >= 1
    ensures forall k :: 0 <= k < |r| ==> '0' <= r[k] <= '9'
    ensures |r| == 1 <==> n < 10
  {
    if n < 10 then [DigitChar(n)] else Digits(n / 10) + [DigitChar(n % 10)]
  }

  /** Decimal text of an integer, with a leading '-' when negative. */
  function Itoa(n: int): (r: string)
    ensures r != "" && '/' !in r
    ensures r[|r| - 1] != '.'
    ensures r[0] == '-' <==> n < 0
  {
    if n < 0 then "-" + Digits(-n) else Digits(n)
  }

  lemma {:induction false} DigitsInjective(a: nat, b: nat)
    requires Digits(a) == Digits(b)
    ensures a == b
  {
    if a >= 10 {
      var da, db := Digits(a), Digits(b);
      assert da[..|da| - 1] == Digits(a / 10) && db[..|db| - 1] == Digits(b / 10);
      DigitsInjective(a / 10, b / 10);
      assert DigitChar(a % 10) == DigitChar(b % 10);
    }
  }

  /** Distinct integers print differently. */
  lemma ItoaInjective(a: int, b: int)
    requires a != b
    ensures Itoa(a) != Itoa(b)
  {
    var sa, sb := Itoa(a), Itoa(b);
    if sa == sb {
      if a < 0 {
        assert sa[1..] == Digits(-a) && sb[1..] == Digits(-b);
        DigitsInjective(-a, -b);
      } else {
        DigitsInjective(a, b);
      }
    }
  }
}

=== FILE: unpack.dfy ===
/**
 * `unpackTarGZ` as a specification: the staging directory name, the effect
 * of one archive entry, the extraction fold that stops at the first error,
 * the publish step that renames each top-level entry of the staging
 * directory into the destination, and the final clean-up.
 */
module Unpack {
  import opened FilePath
  import opened FileSystem
  import opened Listing

  datatype Option<T> = None | Some(value: T)

  /** The errors `downloadPlatform` and `unpackTarGZ` pass up unchanged. */
  datatype Error =
    | Network(msg: string)   // http.Get or reading a response body failed
    | Status(status: string) // a response other than 200 OK, as its status text
    | Gzip(msg: string)      // gzip.NewReader rejected the stream header
    | Tar(msg: string)       // tr.Next() or a read of an entry's content failed
    | Fs(err: FsError)       // an os call failed

  /** One header and body from the tar reader. A body read that failed after
      delivering `content` carries the failure in `readError`. */
  datatype Entry = Entry(name: string, isDir: bool, mode: Mode, content: seq<byte>, readError: Option<string>)

  /** The decoded response body: either a gzip header the decompressor
      rejects, or the entries the tar reader yields and how the stream
      ends (None for io.EOF, Some(msg) for a failing tr.Next()). */
  datatype Archive =
    | BadHeader(msg: string)
    | Stream(entries: seq<Entry>, trailer: Option<string>)

  /** The filesystem after a step and the error that stopped the run, if any. */
  datatype Outcome = Outcome(fs: FS, err: Option<Error>)

  /** The staging directory: the destination name, a dot and the clock. */
  function StagingDir(dstdir: string, nanos: int): (r: string)
    ensures |r| > |dstdir| && r[..|dstdir|] == dstdir
  {
    dstdir + "." + Itoa(nanos)
  }

  /** Every node of the filesystem has a path of plain names. */
  predicate PlainKeys(fs: FS) {
    forall q :: q in fs ==> PlainPath(q)
  }

  /** Where an entry goes: its name joined to the staging directory. */
  function EntryTarget(cwd: Path, tmpdir: string, name: string): Path {
    Lookup(cwd, Join(tmpdir, name))
  }

  /** One loop iteration for entry `e` at `path`: a directory entry is an
      os.MkdirAll; anything else is os.Create, a Chmod whose error is
      ignored, and io.Copy of the content into the open file. */
  function ExtractEntry(fs: FS, path: Path, e: Entry): (o: Outcome)
    // a directory entry leaves a directory at path, a file entry exactly its content
    ensures e.isDir && o.err.None? ==> IsDirAt(o.fs, path)
    ensures !e.isDir && o.err.None? ==> path in o.fs && o.fs[path] == File(e.mode, e.content)
    ensures e.isDir && Wf(fs) && o.err.None? ==> forall a :: a <= path ==> IsDirAt(o.fs, a)
    // a file entry fails at once unless path is a file or a free name in a directory
    ensures !e.isDir ==> (o.err.Some? && !o.err.value.Tar? <==>
                          !(IsFileAt(fs, path) || (path !in fs && path != [] && IsDirAt(fs, Parent(path)))))
    // a failed Create or MkdirAll changes nothing
    ensures o.err.Some? && !o.err.value.Tar? ==> o.fs == fs
    // only path changes, and directories on the way to it may appear
    ensures forall q :: q in fs && q != path ==> q in o.fs && o.fs[q] == fs[q]
    ensures forall q :: q in o.fs && q !in fs ==> q <= path
    ensures e.isDir ==> forall q :: q in fs ==> q in o.fs && o.fs[q] == fs[q]
    // the directories a directory entry makes carry the entry's mode
    ensures e.isDir ==> forall q :: q in o.fs && q !in fs ==> o.fs[q] == Dir(e.mode)
    ensures Wf(fs) ==> Wf(o.fs)
    ensures PlainKeys(fs) && PlainPath(path) ==> PlainKeys(o.fs)
  {
    if e.isDir then
      match MkdirAll(fs, path, e.mode)
      case Fail(err) => Outcome(fs, Some(Fs(err)))
      case Ok(fs1) => Outcome(fs1, None)
    else
      match Create(fs, path)
      case Fail(err) => Outcome(fs, Some(Fs(err)))
      case Ok(fs1) =>
        var fs2 := Chmod(fs1, path, e.mode).value;
        var fs3 := Write(fs2, path, e.content).value;
        if e.readError.Some? then Outcome(fs3, Some(Tar(e.readError.value)))
        else Outcome(fs3, None)
  }

  /** The extraction loop: entries in archive order, the first error ends it. */
  function Extract(fs: FS, cwd: Path, tmpdir: string, es: seq<Entry>): (o: Outcome)
    // nothing is ever removed, the tree stays a tree, and a failure is an
    // os error or a failed read of an entry's content
    ensures forall q :: q in fs ==> q in o.fs
    ensures Wf(fs) ==> Wf(o.fs)
    ensures o.err.Some? ==> o.err.value.Fs? || o.err.value.Tar?
    decreases |es|
  {
    if es == [] then Outcome(fs, None)
    else
      var o := ExtractEntry(fs, EntryTarget(cwd, tmpdir, es[0].name), es[0]);
      if o.err.Some? then o else Extract(o.fs, cwd, tmpdir, es[1..])
  }

  /** The paths `filepath.Glob(filepath.Join(tmpdir, "*"))` returns for the
      staging directory `stage`: nothing unless it is a directory,
      otherwise its entries in sorted order, each joined to `tmpdir`. */
  function GlobNames(fs: FS, stage: Path): (r: seq<string>)
    ensures forall c :: c in r <==> IsDirAt(fs, stage) && stage + [c] in fs
    ensures forall i, j :: 0 <= i < j < |r| ==> LexLe(r[i], r[j]) && r[i] != r[j]
  {
    if IsDirAt(fs, stage) then SortedNames(Children(fs, stage)) else []
  }

  /** The publish loop: each globbed path is renamed to its base name in
      `dstdir`; the first failing rename ends it. */
  function Publish(fs: FS, cwd: Path, tmpdir: string, dstdir: string, names: seq<string>): (o: Outcome)
    ensures o.err.Some? ==> o.err.value.Fs?
    decreases |names|
  {
    if names == [] then Outcome(fs, None)
    else
      var tgt := Join(tmpdir, names[0]);
      match Rename(fs, Lookup(cwd, tgt), Lookup(cwd, Join(dstdir, Base(tgt))))
      case Fail(err) => Outcome(fs, Some(Fs(err)))
      case Ok(fs1) => Publish(fs1, cwd, tmpdir, dstdir, names[1..])
  }

  /** The renames keep the filesystem a tree. */
  lemma {:induction false} PublishWf(fs: FS, cwd: Path, tmpdir: string, dstdir: string, names: seq<string>)
    requires Wf(fs)
    ensures Wf(Publish(fs, cwd, tmpdir, dstdir, names).fs)
    decreases |names|
  {
    if names != [] {
      var tgt := Join(tmpdir, names[0]);
      var r := Rename(fs, Lookup(cwd, tgt), Lookup(cwd, Join(dstdir, Base(tgt))));
      if r.Ok? {
        PublishWf(r.value, cwd, tmpdir, dstdir, names[1..]);
      }
    }
  }

  /** unpackTarGZ(dstdir, r) started at time `nanos` on an archive that
      decodes to `ar`. */
  function UnpackTarGZ(fs: FS, cwd: Path, dstdir: string, nanos: int, ar: Archive): (o: Outcome)
    // a bad gzip header fails before any filesystem write
    ensures ar.BadHeader? ==> o == Outcome(fs, Some(Gzip(ar.msg)))
    ensures Wf(fs) ==> Wf(o.fs)
    // a successful run leaves nothing at or below the staging path
    ensures o.err.None? ==> forall q :: Lookup(cwd, StagingDir(dstdir, nanos)) <= q ==> q !in o.fs
  {
    StagingNotRoot(cwd, dstdir, nanos);
    var tmpdir := StagingDir(dstdir, nanos);
    match ar
    case BadHeader(msg) => Outcome(fs, Some(Gzip(msg)))
    case Stream(es, trailer) =>
      var x := Extract(fs, cwd, tmpdir, es);
      if x.err.Some? then x
      else if trailer.Some? then Outcome(x.fs, Some(Tar(trailer.value)))
      else PublishStage(x.fs, cwd, tmpdir, dstdir)
  }

  /** What follows a complete extraction: rename every globbed entry of the
      staging directory into `dstdir`, then remove the staging directory. */
  function PublishStage(fs: FS, cwd: Path, tmpdir: string, dstdir: string): (o: Outcome)
    ensures Wf(fs) ==> Wf(o.fs)
    ensures o.err.None? && Lookup(cwd, tmpdir) != [] ==> forall q :: Lookup(cwd, tmpdir) <= q ==> q !in o.fs
  {
    var stage := Lookup(cwd, tmpdir);
    var names := GlobNames(fs, stage);
    var p := Publish(fs, cwd, tmpdir, dstdir, names);
    assert Wf(fs) ==> Wf(p.fs) by {
      if Wf(fs) { PublishWf(fs, cwd, tmpdir, dstdir, names); }
    }
    if p.err.Some? then p
    else Outcome(RemoveAll(p.fs, stage), None)
  }

  // ---------------------------------------------------------------------
  // The staging directory

  /** Neither path lies inside the other. */
  predicate Disjoint(a: Path, b: Path) {
    !(a <= b) && !(b <= a)
  }

  /** Two prefixes of one path are ordered. */
  lemma PrefixesOrdered(a: Path, b: Path, q: Path)
    requires a <= q && b <= q
    ensures a <= b || b <= a
  {
    if |a| <= |b| {
      assert a == q[..|a|] == b[..|a|];
    } else {
      assert b == q[..|b|] == a[..|b|];
    }
  }

  /** The staging directory resolves to a fresh last element, the last
      element of `dstdir` with ".<nanos>" appended, beside whatever the
      other elements of `dstdir` lead to. */
  lemma StagingLayout(cwd: Path, dstdir: string, nanos: int) returns (parent: Path, last: string)
    ensures parent == Resolve(if Rooted(dstdir) then [] else cwd, Split(dstdir)[..|Split(dstdir)| - 1])
    ensures last == Split(dstdir)[|Split(dstdir)| - 1]
    ensures Lookup(cwd, dstdir) == ResolveStep(parent, last)
    ensures PlainName(last + "." + Itoa(nanos))
    ensures Lookup(cwd, StagingDir(dstdir, nanos)) == parent + [last + "." + Itoa(nanos)]
  {
    parent, last := LookupLast(cwd, dstdir);
    StagingSegment(last, nanos);
    StagingLookup(cwd, dstdir, nanos, parent, last);
  }

  /** `dstdir` resolves to its last element taken from where the other
      elements lead. */
  lemma LookupLast(cwd: Path, dstdir: string) returns (parent: Path, last: string)
    ensures parent == Resolve(if Rooted(dstdir) then [] else cwd, Split(dstdir)[..|Split(dstdir)| - 1])
    ensures last == Split(dstdir)[|Split(dstdir)| - 1]
    ensures Lookup(cwd, dstdir) == ResolveStep(parent, last)
  {
    var xs := Split(dstdir);
    parent := Resolve(if Rooted(dstdir) then [] else cwd, xs[..|xs| - 1]);
    last := xs[|xs| - 1];
    assert xs == xs[..|xs| - 1] + [last];
    ResolveAppend(if Rooted(dstdir) then [] else cwd, xs[..|xs| - 1], last);
  }

  /** The staging directory resolves to its extended last element, appended
      where the other elements of `dstdir` lead. */
  lemma StagingLookup(cwd: Path, dstdir: string, nanos: int, parent: Path, last: string)
    requires parent == Resolve(if Rooted(dstdir) then [] else cwd, Split(dstdir)[..|Split(dstdir)| - 1])
    requires last == Split(dstdir)[|Split(dstdir)| - 1]
    ensures Lookup(cwd, StagingDir(dstdir, nanos)) == parent + [last + "." + Itoa(nanos)]
  {
    var xs := Split(dstdir);
    StagingSegment(last, nanos);
    StagingSplit(dstdir, nanos);
    StagingRooted(dstdir, nanos);
    ResolveAppend(if Rooted(dstdir) then [] else cwd, xs[..|xs| - 1], last + "." + Itoa(nanos));
  }

  /** The text of the staging directory splits like `dstdir` with its last
      piece extended. */
  lemma StagingSplit(dstdir: string, nanos: int)
    ensures var xs := Split(dstdir);
      Split(StagingDir(dstdir, nanos)) == xs[..|xs| - 1] + [xs[|xs| - 1] + "." + Itoa(nanos)]
  {
    var suffix := "." + Itoa(nanos);
    assert '/' !in suffix;
    assert StagingDir(dstdir, nanos) == dstdir + suffix;
    SplitExtendLast(dstdir, suffix);
    var xs := Split(dstdir);
    assert xs[|xs| - 1] + suffix == xs[|xs| - 1] + "." + Itoa(nanos);
  }

  /** The staging directory is absolute exactly when `dstdir` is. */
  lemma StagingRooted(dstdir: string, nanos: int)
    ensures Rooted(StagingDir(dstdir, nanos)) == Rooted(dstdir)
  {
    var sd := StagingDir(dstdir, nanos);
    if dstdir == [] {
      assert sd[0] == '.';
    } else {
      assert sd[0] == dstdir[0];
    }
  }

  /** The last element of the staging directory is a name: it ends in a
      digit, so it is neither empty nor "." nor "..". */
  lemma StagingSegment(last: string, nanos: int)
    requires '/' !in last
    ensures PlainName(last + "." + Itoa(nanos))
  {
    var suffix := "." + Itoa(nanos);
    var seg := last + suffix;
    assert seg[|seg| - 1] == Itoa(nanos)[|Itoa(nanos)| - 1];
    assert |seg| >= 2 && seg[|seg| - 1] != '.';
    assert seg != ".." by { assert ".."[1] == '.'; }
    assert forall k :: 0 <= k < |seg| ==> seg[k] != '/' by {
      forall k | 0 <= k < |seg| ensures seg[k] != '/' {
        if k < |last| { assert seg[k] == last[k]; } else { assert seg[k] == suffix[k - |last|]; }
      }
    }
  }

  /** The staging directory is never the destination or one of its
      ancestors: it sits in the directory `dstdir`'s other elements lead
      to, under a name longer than `dstdir`'s last element. */
  lemma StagingNotAbove(cwd: Path, dstdir: string, nanos: int)
    ensures !(Lookup(cwd, StagingDir(dstdir, nanos)) <= Lookup(cwd, dstdir))
  {
    var parent, last := StagingLayout(cwd, dstdir, nanos);
    var seg := last + "." + Itoa(nanos);
    assert |seg| > |last|;
    assert (parent + [seg])[|parent|] == seg;
  }

  /** The staging directory is never the root. */
  lemma StagingNotRoot(cwd: Path, dstdir: string, nanos: int)
    ensures Lookup(cwd, StagingDir(dstdir, nanos)) != []
  {
    var _, _ := StagingLayout(cwd, dstdir, nanos);
  }

  /** Runs started at different times stage in disjoint trees. */
  lemma StagingDisjoint(cwd: Path, dstdir: string, n1: int, n2: int)
    requires n1 != n2
    ensures Disjoint(Lookup(cwd, StagingDir(dstdir, n1)), Lookup(cwd, StagingDir(dstdir, n2)))
  {
    var parent, last := StagingLayout(cwd, dstdir, n1);
    var _, _ := StagingLayout(cwd, dstdir, n2);
    var s1, s2 := last + "." + Itoa(n1), last + "." + Itoa(n2);
    ItoaInjective(n1, n2);
    assert s1[|last| + 1..] == Itoa(n1) && s2[|last| + 1..] == Itoa(n2);
    var p1, p2 := parent + [s1], parent + [s2];
    assert p1[|parent|] == s1 && p2[|parent|] == s2 && |p1| == |p2|;
  }

  /** When the last element of `dstdir` is a name, staging is its sibling. */
  lemma StagingBesideDestination(cwd: Path, dstdir: string, nanos: int)
    requires PlainName(Split(dstdir)[|Split(dstdir)| - 1])
    ensures Disjoint(Lookup(cwd, StagingDir(dstdir, nanos)), Lookup(cwd, dstdir))
    ensures Parent(Lookup(cwd, StagingDir(dstdir, nanos))) == Parent(Lookup(cwd, dstdir))
  {
    var parent, last := StagingLayout(cwd, dstdir, nanos);
    var stage, dst := parent + [last + "." + Itoa(nanos)], parent + [last];
    assert stage[|parent|] != dst[|parent|] by {
      assert |stage[|parent|]| > |last|;
    }
    assert Parent(stage) == parent && Parent(dst) == parent;
  }

  /** With a trailing slash on `dstdir` the staging directory is made inside
      the destination, as a dot-name child of it. */
  lemma StagingInsideWithTrailingSlash(cwd: Path, dstdir: string, nanos: int)
    requires dstdir != "" && dstdir[|dstdir| - 1] == '/'
    ensures Lookup(cwd, StagingDir(dstdir, nanos)) == Lookup(cwd, dstdir) + ["." + Itoa(nanos)]
  {
    var xs := Split(dstdir);
    assert xs[|xs| - 1] == "" by {
      var init := dstdir[..|dstdir| - 1];
      assert dstdir == init + "/" + "";
      SplitSlash(init, "");
      SplitSingle("");
      assert xs == Split(init) + [""];
    }
    var parent, last := StagingLayout(cwd, dstdir, nanos);
    assert Lookup(cwd, dstdir) == parent;
    assert last + "." + Itoa(nanos) == "." + Itoa(nanos);
  }

  // ---------------------------------------------------------------------
  // The extraction loop

  /** Extracting `a + b` is extracting `a` and then, unless that failed, `b`. */
  lemma {:induction false} ExtractConcat(fs: FS, cwd: Path, tmpdir: string, a: seq<Entry>, b: seq<Entry>)
    ensures Extract(fs, cwd, tmpdir, a + b) ==
      (var x := Extract(fs, cwd, tmpdir, a);
       if x.err.Some? then x else Extract(x.fs, cwd, tmpdir, b))
    decreases |a|
  {
    if a == [] {
      assert a + b == b;
    } else {
      assert (a + b)[0] == a[0] && (a + b)[1..] == a[1..] + b;
      var o := ExtractEntry(fs, EntryTarget(cwd, tmpdir, a[0].name), a[0]);
      if o.err.None? {
        ExtractConcat(o.fs, cwd, tmpdir, a[1..], b);
      }
    }
  }

  /** The first entry that fails ends the loop: its error and the
      filesystem it leaves are the result, whatever follows it. */
  lemma FirstErrorAborts(fs: FS, cwd: Path, tmpdir: string, es: seq<Entry>, k: nat)
    requires k < |es|
    requires Extract(fs, cwd, tmpdir, es[..k]).err.None?
    requires ExtractEntry(Extract(fs, cwd, tmpdir, es[..k]).fs, EntryTarget(cwd, tmpdir, es[k].name), es[k]).err.Some?
    ensures Extract(fs, cwd, tmpdir, es) ==
      ExtractEntry(Extract(fs, cwd, tmpdir, es[..k]).fs, EntryTarget(cwd, tmpdir, es[k].name), es[k])
  {
    var x := Extract(fs, cwd, tmpdir, es[..k]);
    var rest := es[k..];
    assert Extract(fs, cwd, tmpdir, es) == Extract(x.fs, cwd, tmpdir, rest) by {
      SplitEntries(es, k);
      ExtractConcat(fs, cwd, tmpdir, es[..k], rest);
    }
    assert rest[0] == es[k];
  }

  lemma SplitEntries(es: seq<Entry>, k: nat)
    requires k <= |es|
    ensures es[..k] + es[k..] == es
  {
  }

  /** A node that no entry names is left as it was, and no node is ever
      removed. */
  lemma {:induction false} ExtractKeeps(fs: FS, cwd: Path, tmpdir: string, es: seq<Entry>, q: Path)
    requires q in fs
    requires forall k :: 0 <= k < |es| ==> EntryTarget(cwd, tmpdir, es[k].name) != q
    ensures q in Extract(fs, cwd, tmpdir, es).fs
    ensures Extract(fs, cwd, tmpdir, es).fs[q] == fs[q]
    decreases |es|
  {
    if es != [] {
      var o := ExtractEntry(fs, EntryTarget(cwd, tmpdir, es[0].name), es[0]);
      if o.err.None? {
        assert forall k :: 0 <= k < |es[1..]| ==> es[1..][k] == es[k + 1];
        ExtractKeeps(o.fs, cwd, tmpdir, es[1..], q);
      }
    }
  }

  /** A directory entry that has succeeded can be repeated, with any mode,
      and changes nothing the second time. */
  lemma DirectoryEntryRepeats(fs: FS, path: Path, e: Entry, e2: Entry)
    requires e.isDir && e2.isDir && ExtractEntry(fs, path, e).err.None?
    ensures ExtractEntry(ExtractEntry(fs, path, e).fs, path, e2) == ExtractEntry(fs, path, e)
  {
    MkdirAllIdempotent(fs, path, e.mode, e2.mode);
  }

  /** After a successful extraction a file holds the content of the last
      entry that names it: a later entry with the same name overwrites an
      earlier one. */
  lemma LastFileWins(fs: FS, cwd: Path, tmpdir: string, es: seq<Entry>, i: nat)
    requires Extract(fs, cwd, tmpdir, es).err.None?
    requires i < |es| && !es[i].isDir
    requires forall k :: i < k < |es| ==> EntryTarget(cwd, tmpdir, es[k].name) != EntryTarget(cwd, tmpdir, es[i].name)
    ensures var p := EntryTarget(cwd, tmpdir, es[i].name);
      p in Extract(fs, cwd, tmpdir, es).fs && Extract(fs, cwd, tmpdir, es).fs[p] == File(es[i].mode, es[i].content)
  {
    var p := EntryTarget(cwd, tmpdir, es[i].name);
    var x := Extract(fs, cwd, tmpdir, es[..i]);
    assert Extract(fs, cwd, tmpdir, es) == (if x.err.Some? then x else Extract(x.fs, cwd, tmpdir, es[i..])) by {
      SplitEntries(es, i);
      ExtractConcat(fs, cwd, tmpdir, es[..i], es[i..]);
    }
    assert es[i..][0] == es[i] && es[i..][1..] == es[i + 1..];
    var o := ExtractEntry(x.fs, p, es[i]);
    ExtractKeeps(o.fs, cwd, tmpdir, es[i + 1..], p);
  }

  /** A directory survives a successful extraction: a file entry naming it
      fails, and nothing else touches it. */
  lemma {:induction false} ExtractKeepsDirs(fs: FS, cwd: Path, tmpdir: string, es: seq<Entry>, p: Path)
    requires IsDirAt(fs, p) && Extract(fs, cwd, tmpdir, es).err.None?
    ensures IsDirAt(Extract(fs, cwd, tmpdir, es).fs, p)
    decreases |es|
  {
    if es != [] {
      var o := ExtractEntry(fs, EntryTarget(cwd, tmpdir, es[0].name), es[0]);
      ExtractKeepsDirs(o.fs, cwd, tmpdir, es[1..], p);
    }
  }

  /** After a successful extraction every entry's target is there, and the
      target of a directory entry is a directory. */
  lemma ExtractLeaves(fs: FS, cwd: Path, tmpdir: string, es: seq<Entry>, i: nat)
    requires i < |es| && Extract(fs, cwd, tmpdir, es).err.None?
    ensures var t, r := EntryTarget(cwd, tmpdir, es[i].name), Extract(fs, cwd, tmpdir, es).fs;
      t in r && (es[i].isDir ==> IsDirAt(r, t))
  {
    var t := EntryTarget(cwd, tmpdir, es[i].name);
    var x := Extract(fs, cwd, tmpdir, es[..i]);
    assert Extract(fs, cwd, tmpdir, es) == (if x.err.Some? then x else Extract(x.fs, cwd, tmpdir, es[i..])) by {
      SplitEntries(es, i);
      ExtractConcat(fs, cwd, tmpdir, es[..i], es[i..]);
    }
    assert es[i..][0] == es[i] && es[i..][1..] == es[i + 1..];
    var o := ExtractEntry(x.fs, t, es[i]);
    if es[i].isDir {
      ExtractKeepsDirs(o.fs, cwd, tmpdir, es[i + 1..], t);
    }
  }

  /** Extraction keeps every node's path made of plain names. */
  lemma {:induction false} ExtractPlainKeys(fs: FS, cwd: Path, tmpdir: string, es: seq<Entry>)
    requires PlainKeys(fs) && PlainPath(cwd)
    ensures PlainKeys(Extract(fs, cwd, tmpdir, es).fs)
    decreases |es|
  {
    if es != [] {
      var o := ExtractEntry(fs, EntryTarget(cwd, tmpdir, es[0].name), es[0]);
      if o.err.None? {
        ExtractPlainKeys(o.fs, cwd, tmpdir, es[1..]);
      }
    }
  }

  /** An entry name without ".." elements resolves inside the staging
      directory. */
  lemma NoDotDotConfined(cwd: Path, tmpdir: string, name: string)
    requires tmpdir != ""
    requires forall i :: 0 <= i < |Split(name)| ==> Split(name)[i] != ".."
    ensures Lookup(cwd, tmpdir) <= EntryTarget(cwd, tmpdir, name)
  {
    JoinResolve(cwd, tmpdir, name);
    ResolveBelow(Lookup(cwd, tmpdir), Split(name));
  }

  /** Entry names are not confined: "../x" lands beside the staging
      directory, outside it. */
  lemma EntryEscapes(cwd: Path, tmpdir: string, x: string)
    requires tmpdir != "" && PlainName(x) && Lookup(cwd, tmpdir) != []
    ensures EntryTarget(cwd, tmpdir, "../" + x) == Parent(Lookup(cwd, tmpdir)) + [x]
    ensures !(Lookup(cwd, tmpdir) < EntryTarget(cwd, tmpdir, "../" + x))
  {
    var stage := Lookup(cwd, tmpdir);
    JoinResolve(cwd, tmpdir, "../" + x);
    assert "../" + x == ".." + "/" + x;
    SplitSlash("..", x);
    SplitSingle("..");
    SplitSingle(x);
    assert Split("../" + x) == ["..", x];
    assert Resolve(stage, ["..", x]) == Resolve(Parent(stage), [x]) == Parent(stage) + [x];
  }

  /** With every entry resolving inside the staging directory, extraction
      changes no node outside it, and the only nodes it adds outside it
      are missing ancestors of it. */
  lemma {:induction false} ExtractConfined(fs: FS, cwd: Path, tmpdir: string, es: seq<Entry>)
    requires forall k :: 0 <= k < |es| ==> Lookup(cwd, tmpdir) <= EntryTarget(cwd, tmpdir, es[k].name)
    ensures var stage := Lookup(cwd, tmpdir);
      var r := Extract(fs, cwd, tmpdir, es).fs;
      (forall q :: q in fs && !(stage <= q) ==> q in r && r[q] == fs[q]) &&
      (forall q :: q in r && q !in fs ==> stage <= q || q < stage)
    decreases |es|
  {
    var stage := Lookup(cwd, tmpdir);
    if es != [] {
      var path := EntryTarget(cwd, tmpdir, es[0].name);
      assert stage <= path;
      var o := ExtractEntry(fs, path, es[0]);
      forall q | q in o.fs && q !in fs
        ensures stage <= q || q < stage
      {
        PrefixesOrdered(q, stage, path);
      }
      if o.err.None? {
        assert forall k :: 0 <= k < |es[1..]| ==> es[1..][k] == es[k + 1];
        ExtractConfined(o.fs, cwd, tmpdir, es[1..]);
      }
    }
  }

  // ---------------------------------------------------------------------
  // unpackTarGZ on particular archives

  /** A file entry before any directory entry fails: nothing has made the
      staging directory, so os.Create finds no parent. The error is ENOTDIR
      when the walk to the staging directory meets a file, ENOENT
      otherwise. The filesystem is left as it was. */
  lemma FileBeforeDirectoryFails(fs: FS, cwd: Path, dstdir: string, nanos: int, e: Entry, rest: seq<Entry>, trailer: Option<string>)
    requires Wf(fs) && !e.isDir && PlainName(e.name)
    requires Lookup(cwd, StagingDir(dstdir, nanos)) !in fs
    ensures UnpackTarGZ(fs, cwd, dstdir, nanos, Stream([e] + rest, trailer)) ==
      var stage := Lookup(cwd, StagingDir(dstdir, nanos));
      Outcome(fs, Some(Fs(if FileOnPath(fs, stage) then NotDir(stage + [e.name]) else NotExist(stage + [e.name]))))
  {
    var tmpdir := StagingDir(dstdir, nanos);
    var stage := Lookup(cwd, tmpdir);
    JoinChild(cwd, tmpdir, e.name);
    var p := stage + [e.name];
    assert Parent(p) == stage;
    assert p !in fs by {
      if p in fs { WfAncestor(fs, p, stage); }
    }
    assert ([e] + rest)[0] == e;
  }

  /** An archive with no entries succeeds and changes nothing, provided the
      staging name is not already taken. */
  lemma EmptyArchiveChangesNothing(fs: FS, cwd: Path, dstdir: string, nanos: int)
    requires Wf(fs)
    requires Lookup(cwd, StagingDir(dstdir, nanos)) !in fs
    ensures UnpackTarGZ(fs, cwd, dstdir, nanos, Stream([], None)) == Outcome(fs, None)
  {
    var stage := Lookup(cwd, StagingDir(dstdir, nanos));
    var r := RemoveAll(fs, stage);
    SubtreeHasRoot(fs, stage);
    assert r == fs;
  }

  // ---------------------------------------------------------------------
  // The publish loop

  /** `q` lies in the subtree of `p + [c]` for one of the `names`. */
  predicate Under(q: Path, p: Path, names: seq<string>) {
    |q| > |p| && p <= q && q[|p|] in names
  }

  /** `after` is `before` with the subtree of `stage + [c]` relocated to
      `dst + [c]` for every `c` in `names`, and nothing else changed. */
  ghost predicate Moved(before: FS, after: FS, stage: Path, dst: Path, names: seq<string>) {
    (forall q :: q in before && Under(q, stage, names) ==>
       dst + q[|stage|..] in after && after[dst + q[|stage|..]] == before[q]) &&
    (forall q :: q in before && !Under(q, stage, names) && !Under(q, dst, names) ==>
       q in after && after[q] == before[q]) &&
    (forall q :: q in after ==>
       if Under(q, dst, names) then stage + q[|dst|..] in before && after[q] == before[stage + q[|dst|..]]
       else q in before && !Under(q, stage, names) && after[q] == before[q])
  }

  /** A path inside one of two disjoint trees is not inside the other. */
  lemma DisjointBelow(a: Path, b: Path, q: Path)
    requires Disjoint(a, b) && a <= q
    ensures !(b <= q)
  {
    if b <= q {
      PrefixesOrdered(a, b, q);
    }
  }

  /** One rename of the publish loop moves one child of the staging
      directory into the destination directory. */
  lemma RenameMoves(fs: FS, stage: Path, dst: Path, c: string)
    requires Wf(fs) && Disjoint(stage, dst) && IsDirAt(fs, dst)
    requires stage + [c] in fs && dst + [c] !in fs
    ensures Rename(fs, stage + [c], dst + [c]).Ok?
    ensures Moved(fs, Rename(fs, stage + [c], dst + [c]).value, stage, dst, [c])
    ensures Wf(Rename(fs, stage + [c], dst + [c]).value)
  {
    var src, tgt := stage + [c], dst + [c];
    DisjointBelow(stage, dst, src);
    DisjointBelow(dst, stage, tgt);
    assert Parent(tgt) == dst;
    assert IsDirAt(fs, Parent(src)) by {
      assert Hangs(fs, src) && Parent(src) == stage;
    }
    RenameRemovesSource(fs, src, tgt);
    MovedOne(fs, Rename(fs, src, tgt).value, stage, dst, c);
  }

  /** What rename(2) of `stage + [c]` to `dst + [c]` promises, read as a
      move of one child. */
  lemma MovedOne(fs: FS, r: FS, stage: Path, dst: Path, c: string)
    requires Disjoint(stage, dst)
    requires forall rest :: stage + [c] + rest in fs ==> dst + [c] + rest in r && r[dst + [c] + rest] == fs[stage + [c] + rest]
    requires forall q :: q in r && !(dst + [c] <= q) ==> q in fs && r[q] == fs[q]
    requires forall q :: q in r && dst + [c] <= q ==>
      stage + [c] + q[|dst| + 1..] in fs && r[q] == fs[stage + [c] + q[|dst| + 1..]]
    requires forall q :: q in fs && !(stage + [c] <= q) && !(dst + [c] <= q) ==> q in r
    requires forall q :: stage + [c] <= q ==> q !in r
    ensures Moved(fs, r, stage, dst, [c])
  {
    MovedOneCarried(fs, r, stage, dst, c);
    MovedOneKept(fs, r, stage, dst, c);
    MovedOneFrom(fs, r, stage, dst, c);
  }

  lemma MovedOneCarried(fs: FS, r: FS, stage: Path, dst: Path, c: string)
    requires forall rest :: stage + [c] + rest in fs ==> dst + [c] + rest in r && r[dst + [c] + rest] == fs[stage + [c] + rest]
    ensures forall q :: q in fs && Under(q, stage, [c]) ==> dst + q[|stage|..] in r && r[dst + q[|stage|..]] == fs[q]
  {
    var src, tgt := stage + [c], dst + [c];
    forall q | q in fs && Under(q, stage, [c])
      ensures dst + q[|stage|..] in r && r[dst + q[|stage|..]] == fs[q]
    {
      var rest := q[|src|..];
      assert q[|stage|..] == [c] + rest;
      assert src + rest == q;
      assert dst + q[|stage|..] == tgt + rest;
    }
  }

  lemma MovedOneKept(fs: FS, r: FS, stage: Path, dst: Path, c: string)
    requires forall q :: q in fs && !(stage + [c] <= q) && !(dst + [c] <= q) ==> q in r
    requires forall q :: q in r && !(dst + [c] <= q) ==> q in fs && r[q] == fs[q]
    ensures forall q :: q in fs && !Under(q, stage, [c]) && !Under(q, dst, [c]) ==> q in r && r[q] == fs[q]
  {
    var src, tgt := stage + [c], dst + [c];
    forall q | q in fs && !Under(q, stage, [c]) && !Under(q, dst, [c])
      ensures q in r && r[q] == fs[q]
    {
      assert !(src <= q) && !(tgt <= q);
    }
  }

  lemma MovedOneFrom(fs: FS, r: FS, stage: Path, dst: Path, c: string)
    requires Disjoint(stage, dst)
    requires forall q :: q in r && !(dst + [c] <= q) ==> q in fs && r[q] == fs[q]
    requires forall q :: q in r && dst + [c] <= q ==>
      stage + [c] + q[|dst| + 1..] in fs && r[q] == fs[stage + [c] + q[|dst| + 1..]]
    requires forall q :: stage + [c] <= q ==> q !in r
    ensures forall q :: q in r ==>
      if Under(q, dst, [c]) then stage + q[|dst|..] in fs && r[q] == fs[stage + q[|dst|..]]
      else q in fs && !Under(q, stage, [c]) && r[q] == fs[q]
  {
    var src, tgt := stage + [c], dst + [c];
    forall q | q in r
      ensures if Under(q, dst, [c]) then stage + q[|dst|..] in fs && r[q] == fs[stage + q[|dst|..]]
              else q in fs && !Under(q, stage, [c]) && r[q] == fs[q]
    {
      if Under(q, dst, [c]) {
        assert tgt <= q;
        assert q[|dst|..] == [c] + q[|dst| + 1..];
        assert stage + q[|dst|..] == src + q[|dst| + 1..];
      } else {
        assert !(tgt <= q);
        assert !(src <= q);
      }
    }
  }

  /** Moving one child and then the others moves them all. */
  lemma MovedCompose(fs: FS, fs1: FS, o: FS, stage: Path, dst: Path, c: string, tail: seq<string>)
    requires Disjoint(stage, dst) && c !in tail
    requires Moved(fs, fs1, stage, dst, [c]) && Moved(fs1, o, stage, dst, tail)
    ensures Moved(fs, o, stage, dst, [c] + tail)
  {
    var names := [c] + tail;
    forall q | q in fs && Under(q, stage, names)
      ensures dst + q[|stage|..] in o && o[dst + q[|stage|..]] == fs[q]
    {
      DisjointBelow(stage, dst, q);
      if q[|stage|] == c {
        var t := dst + q[|stage|..];
        assert t[|dst|] == c && t[|dst|..] == q[|stage|..];
        DisjointBelow(dst, stage, t);
        assert !Under(t, stage, tail) && !Under(t, dst, tail);
      } else {
        assert !Under(q, stage, [c]) && !Under(q, dst, [c]);
      }
    }
    forall q | q in fs && !Under(q, stage, names) && !Under(q, dst, names)
      ensures q in o && o[q] == fs[q]
    {
      assert !Under(q, stage, [c]) && !Under(q, dst, [c]);
    }
    forall q | q in o
      ensures if Under(q, dst, names) then stage + q[|dst|..] in fs && o[q] == fs[stage + q[|dst|..]]
              else q in fs && !Under(q, stage, names) && o[q] == fs[q]
    {
      if Under(q, dst, tail) {
        var s := stage + q[|dst|..];
        assert s[|stage|] == q[|dst|] && s[|stage|..] == q[|dst|..];
        DisjointBelow(stage, dst, s);
        assert !Under(s, stage, [c]) && !Under(s, dst, [c]);
      } else if Under(q, dst, [c]) {
        assert q in fs1;
      } else {
        assert q in fs1 && !Under(q, stage, tail);
      }
    }
  }

  /** The publish loop over distinct children of the staging directory,
      each free in the destination directory, renames every one of them. */
  lemma {:induction false} PublishMoves(fs: FS, cwd: Path, tmpdir: string, dstdir: string, names: seq<string>)
    requires Wf(fs)
    requires Disjoint(Lookup(cwd, tmpdir), Lookup(cwd, dstdir)) && IsDirAt(fs, Lookup(cwd, dstdir))
    requires forall i, j :: 0 <= i < j < |names| ==> names[i] != names[j]
    requires forall c :: c in names ==> PlainName(c) && Lookup(cwd, tmpdir) + [c] in fs && Lookup(cwd, dstdir) + [c] !in fs
    ensures var o := Publish(fs, cwd, tmpdir, dstdir, names);
      o.err.None? && Wf(o.fs) && Moved(fs, o.fs, Lookup(cwd, tmpdir), Lookup(cwd, dstdir), names)
    decreases |names|
  {
    var stage, dst := Lookup(cwd, tmpdir), Lookup(cwd, dstdir);
    if names != [] {
      var c, tail := names[0], names[1..];
      assert names == [c] + tail;
      PublishStep(fs, cwd, tmpdir, dstdir, names);
      RenameMoves(fs, stage, dst, c);
      var fs1 := Rename(fs, stage + [c], dst + [c]).value;
      MovedTailReady(fs, fs1, stage, dst, names);
      PublishMoves(fs1, cwd, tmpdir, dstdir, tail);
      MovedCompose(fs, fs1, Publish(fs1, cwd, tmpdir, dstdir, tail).fs, stage, dst, c, tail);
    }
  }

  /** After the first rename of the publish loop, the remaining names are
      still distinct entries of the staging directory, free in the
      destination directory, which is still there. */
  lemma MovedTailReady(fs: FS, fs1: FS, stage: Path, dst: Path, names: seq<string>)
    requires names != [] && Disjoint(stage, dst) && IsDirAt(fs, dst)
    requires forall i, j :: 0 <= i < j < |names| ==> names[i] != names[j]
    requires forall c :: c in names ==> PlainName(c) && stage + [c] in fs && dst + [c] !in fs
    requires Moved(fs, fs1, stage, dst, [names[0]])
    ensures IsDirAt(fs1, dst) && names[0] !in names[1..]
    ensures forall i, j :: 0 <= i < j < |names[1..]| ==> names[1..][i] != names[1..][j]
    ensures forall d :: d in names[1..] ==> PlainName(d) && stage + [d] in fs1 && dst + [d] !in fs1
  {
    var c, tail := names[0], names[1..];
    assert !Under(dst, stage, [c]) && !Under(dst, dst, [c]);
    forall d | d in tail
      ensures stage + [d] in fs1 && dst + [d] !in fs1
    {
      var s := stage + [d];
      assert d in names;
      DisjointBelow(stage, dst, s);
      assert d != c by {
        var j :| 0 <= j < |tail| && tail[j] == d;
        assert tail[j] == names[j + 1];
      }
      assert !Under(s, stage, [c]) && !Under(s, dst, [c]);
      assert !Under(dst + [d], dst, [c]);
    }
    forall i, j | 0 <= i < j < |tail|
      ensures tail[i] != tail[j]
    {
      assert tail[i] == names[i + 1] && tail[j] == names[j + 1];
    }
    forall j | 0 <= j < |tail|
      ensures tail[j] != c
    {
      assert tail[j] == names[j + 1];
    }
  }

  /** On success every node below the staging directory is found at the
      same place below `dstdir`, the staging directory is gone, and every
      other node is as it was; the published names are the staging
      directory's children, and their places in `dstdir` were free. */
  lemma PublishLayout(fs: FS, cwd: Path, tmpdir: string, dstdir: string)
    requires Wf(fs) && PlainKeys(fs)
    requires Disjoint(Lookup(cwd, tmpdir), Lookup(cwd, dstdir))
    requires IsDirAt(fs, Lookup(cwd, tmpdir)) && IsDirAt(fs, Lookup(cwd, dstdir))
    requires forall c :: c in Children(fs, Lookup(cwd, tmpdir)) ==> Lookup(cwd, dstdir) + [c] !in fs
    ensures var stage, dst, o := Lookup(cwd, tmpdir), Lookup(cwd, dstdir), PublishStage(fs, cwd, tmpdir, dstdir);
      o.err.None? && Wf(o.fs) &&
      (forall q :: q in fs && stage < q ==> dst + q[|stage|..] in o.fs && o.fs[dst + q[|stage|..]] == fs[q]) &&
      (forall q :: stage <= q ==> q !in o.fs) &&
      (forall q :: q in fs && !(stage <= q) && !Under(q, dst, GlobNames(fs, stage)) ==> q in o.fs && o.fs[q] == fs[q]) &&
      (forall q :: q in o.fs ==>
         if Under(q, dst, GlobNames(fs, stage)) then stage + q[|dst|..] in fs && o.fs[q] == fs[stage + q[|dst|..]]
         else q in fs && !(stage <= q) && o.fs[q] == fs[q])
  {
    var stage, dst := Lookup(cwd, tmpdir), Lookup(cwd, dstdir);
    var names := GlobNames(fs, stage);
    assert names == SortedNames(Children(fs, stage));
    forall c | c in names
      ensures PlainName(c) && stage + [c] in fs && dst + [c] !in fs
    {
      assert PlainPath(stage + [c]) && (stage + [c])[|stage|] == c;
    }
    PublishMoves(fs, cwd, tmpdir, dstdir, names);
    var p := Publish(fs, cwd, tmpdir, dstdir, names);
    var r := RemoveAll(p.fs, stage);
    assert PublishStage(fs, cwd, tmpdir, dstdir) == Outcome(r, None);
    forall q | q in fs && stage < q
      ensures dst + q[|stage|..] in r && r[dst + q[|stage|..]] == fs[q]
    {
      DescendantHasChild(fs, stage, q);
      assert Under(q, stage, names);
      DisjointBelow(dst, stage, dst + q[|stage|..]);
    }
  }

  /** Whatever the renames do, successful or not, they keep every node
      outside the entries of the staging and destination directories that
      carry one of the names. */
  lemma {:induction false} PublishKeeps(fs: FS, cwd: Path, tmpdir: string, dstdir: string, names: seq<string>)
    requires forall c :: c in names ==> PlainName(c)
    ensures var stage, dst, o := Lookup(cwd, tmpdir), Lookup(cwd, dstdir), Publish(fs, cwd, tmpdir, dstdir, names);
      forall q :: q in fs && !Under(q, stage, names) && !Under(q, dst, names) ==> q in o.fs && o.fs[q] == fs[q]
    decreases |names|
  {
    if names != [] {
      var ok, next := PublishTurn(fs, cwd, tmpdir, dstdir, names);
      if ok {
        PublishKeeps(next, cwd, tmpdir, dstdir, names[1..]);
        UnderTail(names);
      }
    }
  }

  /** Not below any of the names means not below the first and not below
      the others. */
  lemma UnderTail(names: seq<string>)
    requires names != []
    ensures forall q, p :: !Under(q, p, names) ==> !Under(q, p, [names[0]]) && !Under(q, p, names[1..])
  {
    assert forall x :: x in names[1..] ==> x in names;
  }

  /** The publish loop's first turn renames `stage + [c]` to `dst + [c]`
      for the first name `c`. */
  lemma PublishStep(fs: FS, cwd: Path, tmpdir: string, dstdir: string, names: seq<string>)
    requires names != [] && PlainName(names[0])
    ensures var stage, dst, c := Lookup(cwd, tmpdir), Lookup(cwd, dstdir), names[0];
      var r := Rename(fs, stage + [c], dst + [c]);
      Publish(fs, cwd, tmpdir, dstdir, names) ==
        if r.Ok? then Publish(r.value, cwd, tmpdir, dstdir, names[1..]) else Outcome(fs, Some(Fs(r.error)))
  {
    var c := names[0];
    JoinChild(cwd, tmpdir, c);
    BaseJoin(tmpdir, c);
    JoinChild(cwd, dstdir, c);
  }

  /** A staging entry whose name is already a directory in the
      destination stops the publish loop at once: os.Rename refuses an
      existing directory with EEXIST, even an empty one, and nothing
      changes. */
  lemma ExistingDirectoryBlocksPublish(fs: FS, cwd: Path, tmpdir: string, dstdir: string, names: seq<string>)
    requires names != [] && PlainName(names[0])
    requires Lookup(cwd, tmpdir) + [names[0]] in fs && IsDirAt(fs, Lookup(cwd, dstdir) + [names[0]])
    ensures Publish(fs, cwd, tmpdir, dstdir, names) == Outcome(fs, Some(Fs(Exists(Lookup(cwd, dstdir) + [names[0]]))))
  {
    PublishStep(fs, cwd, tmpdir, dstdir, names);
  }

  /** One turn of the publish loop renames `stage + [c]` to `dst + [c]`
      for the first name `c`: if that fails the loop stops with the
      filesystem as it was, otherwise it goes on from a filesystem that
      differs only in the subtrees of `stage + [c]` and `dst + [c]`. */
  lemma PublishTurn(fs: FS, cwd: Path, tmpdir: string, dstdir: string, names: seq<string>) returns (ok: bool, next: FS)
    requires names != [] && PlainName(names[0])
    ensures var stage, dst, c := Lookup(cwd, tmpdir), Lookup(cwd, dstdir), [names[0]];
      (!ok ==> Publish(fs, cwd, tmpdir, dstdir, names).fs == fs) &&
      (ok ==> Publish(fs, cwd, tmpdir, dstdir, names) == Publish(next, cwd, tmpdir, dstdir, names[1..])) &&
      (ok ==> forall q :: q in fs && !Under(q, stage, c) && !Under(q, dst, c) ==> q in next && next[q] == fs[q]) &&
      (ok ==> forall q :: q in next && !Under(q, dst, c) ==> q in fs && next[q] == fs[q])
  {
    var stage, dst, c := Lookup(cwd, tmpdir), Lookup(cwd, dstdir), names[0];
    PublishStep(fs, cwd, tmpdir, dstdir, names);
    ok, next := RenameFrame(fs, stage, dst, c);
  }

  /** The rename of one turn, when it succeeds, keeps every node outside
      the subtrees of the two entries it touches, and every node it leaves
      outside the subtree of `dst + [c]` was there before; see Rename. */
  lemma RenameFrame(fs: FS, stage: Path, dst: Path, c: string) returns (ok: bool, next: FS)
    ensures var r := Rename(fs, stage + [c], dst + [c]);
      ok == r.Ok? && (ok ==> next == r.value)
    ensures ok ==> forall q :: q in fs && !Under(q, stage, [c]) && !Under(q, dst, [c]) ==> q in next && next[q] == fs[q]
    ensures ok ==> forall q :: q in next && !Under(q, dst, [c]) ==> q in fs && next[q] == fs[q]
    ensures ok ==> !IsDirAt(fs, dst + [c]) && (Wf(fs) ==> Wf(next)) && dst + [c] in next
  {
    ok, next := RenameOutside(fs, stage + [c], dst + [c]);
    UnderOne(stage, c);
    UnderOne(dst, c);
  }

  /** Below the one name `c` of `p` is below `p + [c]`. */
  lemma UnderOne(p: Path, c: string)
    ensures forall q :: Under(q, p, [c]) <==> p + [c] <= q
  {
    forall q
      ensures Under(q, p, [c]) <==> p + [c] <= q
    {
      if |q| > |p| && p <= q {
        assert q[..|p| + 1] == p + [q[|p|]];
      }
    }
  }

  /** A successful rename keeps every node outside the subtrees of `src`
      and `dst`, and leaves nothing outside the subtree of `dst` that was
      not there before. */
  lemma RenameOutside(fs: FS, src: Path, dst: Path) returns (ok: bool, next: FS)
    ensures var r := Rename(fs, src, dst);
      ok == r.Ok? && (ok ==> next == r.value)
    ensures ok ==> forall q :: q in fs && !(src <= q) && !(dst <= q) ==> q in next && next[q] == fs[q]
    ensures ok ==> forall q :: q in next && !(dst <= q) ==> q in fs && next[q] == fs[q]
    ensures ok ==> !IsDirAt(fs, dst) && (Wf(fs) ==> Wf(next)) && dst in next
  {
    var r := Rename(fs, src, dst);
    assert src + [] == src && dst + [] == dst;
    ok := r.Ok?;
    next := if r.Ok? then r.value else fs;
  }

  /** Whatever the renames do, successful or not, every node they leave
      outside the destination directory's entries that carry one of the
      names was there before, as it was. */
  lemma {:induction false} PublishAddsOnlyToDestination(fs: FS, cwd: Path, tmpdir: string, dstdir: string, names: seq<string>)
    requires forall c :: c in names ==> PlainName(c)
    ensures var dst, o := Lookup(cwd, dstdir), Publish(fs, cwd, tmpdir, dstdir, names);
      forall q :: q in o.fs && !Under(q, dst, names) ==> q in fs && o.fs[q] == fs[q]
    decreases |names|
  {
    if names != [] {
      var ok, next := PublishTurn(fs, cwd, tmpdir, dstdir, names);
      if ok {
        PublishAddsOnlyToDestination(next, cwd, tmpdir, dstdir, names[1..]);
        UnderTail(names);
      }
    }
  }

  /** The entries of the staging directory carry plain names. */
  lemma GlobNamesPlain(fs: FS, stage: Path)
    requires PlainKeys(fs)
    ensures forall c :: c in GlobNames(fs, stage) ==> PlainName(c)
  {
    forall c | c in GlobNames(fs, stage)
      ensures PlainName(c)
    {
      assert c in Children(fs, stage);
      assert PlainPath(stage + [c]) && (stage + [c])[|stage|] == c;
    }
  }

  // ---------------------------------------------------------------------
  // unpackTarGZ as a whole

  /** With entry names confined to the staging directory, a run, whether it
      succeeds or fails, changes no node outside the staging directory
      except the subtrees of the destination directory's entries named like
      the staging directory's entries after extraction; it adds nodes only
      there and on the way to the staging directory. */
  lemma UnpackFrame(fs: FS, cwd: Path, dstdir: string, nanos: int, es: seq<Entry>, trailer: Option<string>)
    requires PlainKeys(fs) && PlainPath(cwd)
    requires forall k :: 0 <= k < |es| ==>
      Lookup(cwd, StagingDir(dstdir, nanos)) <= EntryTarget(cwd, StagingDir(dstdir, nanos), es[k].name)
    ensures var tmpdir := StagingDir(dstdir, nanos);
      var stage, dst := Lookup(cwd, tmpdir), Lookup(cwd, dstdir);
      var names := GlobNames(Extract(fs, cwd, tmpdir, es).fs, stage);
      var r := UnpackTarGZ(fs, cwd, dstdir, nanos, Stream(es, trailer)).fs;
      (forall q :: q in fs && !(stage <= q) && !Under(q, dst, names) ==> q in r && r[q] == fs[q]) &&
      (forall q :: q in r && q !in fs ==> stage <= q || q < stage || Under(q, dst, names))
  {
    var tmpdir := StagingDir(dstdir, nanos);
    ExtractConfined(fs, cwd, tmpdir, es);
    ExtractPlainKeys(fs, cwd, tmpdir, es);
    var x := Extract(fs, cwd, tmpdir, es);
    if x.err.None? && trailer.None? {
      assert UnpackTarGZ(fs, cwd, dstdir, nanos, Stream(es, trailer)) == PublishStage(x.fs, cwd, tmpdir, dstdir);
      PublishStageFrame(x.fs, cwd, tmpdir, dstdir);
    }
  }

  /** Where an archive entry ends up after a successful run: with entry
      names confined to the staging directory and the destination free of
      the staging directory's top-level names, an entry at `stage + rest`
      is published at `dst + rest`; a directory entry leaves a directory
      there, and the last file entry for its target leaves that file with
      the entry's mode and content. */
  lemma UnpackPlacesEntries(fs: FS, cwd: Path, dstdir: string, nanos: int, es: seq<Entry>, i: nat)
    requires Wf(fs) && PlainKeys(fs) && PlainPath(cwd)
    requires var tmpdir := StagingDir(dstdir, nanos);
      var stage, dst := Lookup(cwd, tmpdir), Lookup(cwd, dstdir);
      Disjoint(stage, dst) && IsDirAt(fs, dst) &&
      (forall k :: 0 <= k < |es| ==> stage <= EntryTarget(cwd, tmpdir, es[k].name)) &&
      i < |es| && stage < EntryTarget(cwd, tmpdir, es[i].name) &&
      Extract(fs, cwd, tmpdir, es).err.None? &&
      (forall c :: c in Children(Extract(fs, cwd, tmpdir, es).fs, stage) ==> dst + [c] !in fs)
    ensures var tmpdir := StagingDir(dstdir, nanos);
      var stage, dst := Lookup(cwd, tmpdir), Lookup(cwd, dstdir);
      var t := EntryTarget(cwd, tmpdir, es[i].name);
      var o := UnpackTarGZ(fs, cwd, dstdir, nanos, Stream(es, None));
      o.err.None? &&
      (es[i].isDir ==> IsDirAt(o.fs, dst + t[|stage|..])) &&
      (!es[i].isDir && (forall k :: i < k < |es| ==> EntryTarget(cwd, tmpdir, es[k].name) != t) ==>
         dst + t[|stage|..] in o.fs && o.fs[dst + t[|stage|..]] == File(es[i].mode, es[i].content))
  {
    var tmpdir := StagingDir(dstdir, nanos);
    var stage, dst := Lookup(cwd, tmpdir), Lookup(cwd, dstdir);
    var t := EntryTarget(cwd, tmpdir, es[i].name);
    var x := Extract(fs, cwd, tmpdir, es);
    ExtractLeaves(fs, cwd, tmpdir, es, i);
    WfAncestor(x.fs, t, stage);
    ExtractPlainKeys(fs, cwd, tmpdir, es);
    ExtractConfined(fs, cwd, tmpdir, es);
    assert IsDirAt(x.fs, dst) by {
      assert !(stage <= dst);
    }
    forall c | c in Children(x.fs, stage)
      ensures dst + [c] !in x.fs
    {
      var d := dst + [c];
      if d in x.fs {
        DisjointBelow(dst, stage, d);
      }
    }
    PublishLayout(x.fs, cwd, tmpdir, dstdir);
    assert UnpackTarGZ(fs, cwd, dstdir, nanos, Stream(es, None)) == PublishStage(x.fs, cwd, tmpdir, dstdir);
    if !es[i].isDir && (forall k :: i < k < |es| ==> EntryTarget(cwd, tmpdir, es[k].name) != t) {
      LastFileWins(fs, cwd, tmpdir, es, i);
    }
  }

  /** The publish step, failing or not, changes nothing outside the staging
      directory and the subtrees of the destination directory's entries
      named like the staging directory's entries, and adds nothing outside
      the latter. */
  lemma PublishStageFrame(fs: FS, cwd: Path, tmpdir: string, dstdir: string)
    requires PlainKeys(fs)
    ensures var stage, dst := Lookup(cwd, tmpdir), Lookup(cwd, dstdir);
      var names, r := GlobNames(fs, stage), PublishStage(fs, cwd, tmpdir, dstdir).fs;
      (forall q :: q in fs && !(stage <= q) && !Under(q, dst, names) ==> q in r && r[q] == fs[q]) &&
      (forall q :: q in r && !Under(q, dst, names) ==> q in fs && r[q] == fs[q])
  {
    var stage := Lookup(cwd, tmpdir);
    GlobNamesPlain(fs, stage);
    PublishKeeps(fs, cwd, tmpdir, dstdir, GlobNames(fs, stage));
    PublishAddsOnlyToDestination(fs, cwd, tmpdir, dstdir, GlobNames(fs, stage));
  }

  /** Every error path leaves the staging directory where extraction put
      it: nothing removes it before the final os.RemoveAll. */
  lemma StagingKeptOnError(fs: FS, cwd: Path, dstdir: string, nanos: int, es: seq<Entry>, trailer: Option<string>)
    requires Wf(fs) && PlainKeys(fs) && PlainPath(cwd)
    requires IsDirAt(Extract(fs, cwd, StagingDir(dstdir, nanos), es).fs, Lookup(cwd, StagingDir(dstdir, nanos)))
    requires UnpackTarGZ(fs, cwd, dstdir, nanos, Stream(es, trailer)).err.Some?
    ensures IsDirAt(UnpackTarGZ(fs, cwd, dstdir, nanos, Stream(es, trailer)).fs, Lookup(cwd, StagingDir(dstdir, nanos)))
  {
    var tmpdir := StagingDir(dstdir, nanos);
    var stage := Lookup(cwd, tmpdir);
    ExtractPlainKeys(fs, cwd, tmpdir, es);
    var x := Extract(fs, cwd, tmpdir, es);
    if x.err.None? && trailer.None? {
      GlobNamesPlain(x.fs, stage);
      PublishKeepsStaging(x.fs, cwd, tmpdir, dstdir, GlobNames(x.fs, stage));
    }
  }

  /** The renames, failing or not, leave the staging directory in a tree
      a directory. A rename could only remove it by moving something onto
      it or onto one of its ancestors, and those are existing directories,
      which os.Rename refuses. */
  lemma {:induction false} PublishKeepsStaging(fs: FS, cwd: Path, tmpdir: string, dstdir: string, names: seq<string>)
    requires Wf(fs) && IsDirAt(fs, Lookup(cwd, tmpdir))
    requires forall c :: c in names ==> PlainName(c)
    ensures IsDirAt(Publish(fs, cwd, tmpdir, dstdir, names).fs, Lookup(cwd, tmpdir))
    decreases |names|
  {
    if names != [] {
      var stage, dst, c := Lookup(cwd, tmpdir), Lookup(cwd, dstdir), names[0];
      PublishStep(fs, cwd, tmpdir, dstdir, names);
      var ok, next := RenameFrame(fs, stage, dst, c);
      if ok {
        assert !Under(stage, dst, [c]) by {
          UnderOne(dst, c);
          if dst + [c] <= stage && dst + [c] != stage {
            WfAncestor(fs, stage, dst + [c]);
          }
        }
        assert !Under(stage, stage, [c]);
        PublishKeepsStaging(next, cwd, tmpdir, dstdir, names[1..]);
      }
    }
  }
  /** Whatever the staging and destination paths, a publish loop whose
      renames all succeed leaves each name it renamed as an entry of the
      destination directory, outside the staging directory: a rename onto
      the staging directory or one of its ancestors would have been
      refused, and each later rename touches only its own name. */
  lemma {:induction false} PublishPlaces(fs: FS, cwd: Path, tmpdir: string, dstdir: string, names: seq<string>)
    requires Wf(fs) && IsDirAt(fs, Lookup(cwd, tmpdir)) && !(Lookup(cwd, tmpdir) <= Lookup(cwd, dstdir))
    requires forall c :: c in names ==> PlainName(c)
    requires forall i, j :: 0 <= i < j < |names| ==> names[i] != names[j]
    ensures var stage, dst, o := Lookup(cwd, tmpdir), Lookup(cwd, dstdir), Publish(fs, cwd, tmpdir, dstdir, names);
      o.err.None? ==> forall c :: c in names ==> dst + [c] in o.fs && !(stage <= dst + [c])
    decreases |names|
  {
    if names != [] {
      var stage, dst, c, tail := Lookup(cwd, tmpdir), Lookup(cwd, dstdir), names[0], names[1..];
      PublishStep(fs, cwd, tmpdir, dstdir, names);
      var ok, next := RenameFrame(fs, stage, dst, c);
      if ok {
        assert !(stage <= dst + [c]);
        assert IsDirAt(next, stage) by {
          assert !Under(stage, dst, [c]) by {
            UnderOne(dst, c);
            if dst + [c] <= stage && dst + [c] != stage {
              WfAncestor(fs, stage, dst + [c]);
            }
          }
          assert !Under(stage, stage, [c]);
        }
        DistinctTail(names);
        PublishPlaces(next, cwd, tmpdir, dstdir, tail);
        PublishKeeps(next, cwd, tmpdir, dstdir, tail);
        assert !Under(dst + [c], stage, tail) && !Under(dst + [c], dst, tail);
      }
    }
  }

  /** A successful publish step, for any staging path not at or above the
      destination, leaves every entry the staging directory had as an
      entry of the destination directory. */
  lemma PublishInstalls(fs: FS, cwd: Path, tmpdir: string, dstdir: string)
    requires Wf(fs) && PlainKeys(fs) && IsDirAt(fs, Lookup(cwd, tmpdir))
    requires !(Lookup(cwd, tmpdir) <= Lookup(cwd, dstdir))
    ensures var o := PublishStage(fs, cwd, tmpdir, dstdir);
      o.err.None? ==> forall c :: c in Children(fs, Lookup(cwd, tmpdir)) ==> Lookup(cwd, dstdir) + [c] in o.fs
  {
    var stage := Lookup(cwd, tmpdir);
    var names := GlobNames(fs, stage);
    GlobNamesPlain(fs, stage);
    PublishPlaces(fs, cwd, tmpdir, dstdir, names);
  }

  /** A successful run, whatever `dstdir` is (empty, with a trailing slash,
      or neither), leaves every top-level entry that extraction put in the
      staging directory as an entry of the destination directory. */
  lemma UnpackInstalls(fs: FS, cwd: Path, dstdir: string, nanos: int, es: seq<Entry>, trailer: Option<string>)
    requires Wf(fs) && PlainKeys(fs) && PlainPath(cwd)
    ensures var tmpdir := StagingDir(dstdir, nanos);
      var x, o := Extract(fs, cwd, tmpdir, es), UnpackTarGZ(fs, cwd, dstdir, nanos, Stream(es, trailer));
      o.err.None? ==> forall c :: c in Children(x.fs, Lookup(cwd, tmpdir)) ==> Lookup(cwd, dstdir) + [c] in o.fs
  {
    var tmpdir := StagingDir(dstdir, nanos);
    var stage := Lookup(cwd, tmpdir);
    var x := Extract(fs, cwd, tmpdir, es);
    if x.err.None? && trailer.None? && Children(x.fs, stage) != {} {
      var c :| c in Children(x.fs, stage);
      WfAncestor(x.fs, stage + [c], stage);
      ExtractPlainKeys(fs, cwd, tmpdir, es);
      StagingNotAbove(cwd, dstdir, nanos);
      PublishInstalls(x.fs, cwd, tmpdir, dstdir);
    }
  }

  /** The names after the first of distinct names are distinct and differ
      from it. */
  lemma DistinctTail(names: seq<string>)
    requires names != []
    requires forall i, j :: 0 <= i < j < |names| ==> names[i] != names[j]
    ensures forall i, j :: 0 <= i < j < |names[1..]| ==> names[1..][i] != names[1..][j]
    ensures names[0] !in names[1..]
  {
    var tail := names[1..];
    forall i, j | 0 <= i < j < |tail|
      ensures tail[i] != tail[j]
    {
      assert tail[i] == names[i + 1] && tail[j] == names[j + 1];
    }
    forall j | 0 <= j < |tail|
      ensures tail[j] != names[0]
    {
      assert tail[j] == names[j + 1];
    }
  }
}
